=== FILE: README.md ===
# PyPrometheus in Dafny

A model of the two classes of PyPrometheus, a small Python client for the
Prometheus HTTP API:

- `PrometheusQueryClient` resolves a query window and step, builds the
  parameters of a range query and checks the server's reply envelope. It turns
  the returned series into named columns. For cumulative counters, whose names
  contain `_total`, it adds a `delta_<column>` column of successive differences.
- `Prometheus` is configured with a set of metrics and a default time window.
  It fetches metrics through the client and keeps the results in its
  `prometheus_data` map.

Everything is modelled with pure functions over immutable values:

- The clock (`datetime.now()`) is the `now` parameter.
- The HTTP GET and JSON decoding are the `transport` function parameter.
- Every Python exception is an `Err` of the `Base.Error` datatype.
- Dictionaries are maps. A data frame is a sequence of uniquely named columns.

Modules:

- `Base`: `Option`, `Result`, the error kinds, and Python truthiness of an
  optional string.
- `Text`: decimal digits, fixed-width and shortest decimal rendering, and
  substring search.
- `Timestamps`: proleptic Gregorian date-times, `%Y-%m-%dT%H:%M:%SZ`
  formatting and parsing, and subtracting one hour.
- `Window`: the window and step rule of `get_general`.
- `Query`: `_datetime_to_str`, the `query_range` parameters, and the reply
  envelope.
- `Tables`: series to columns (`get_without_deltas`).
- `Augment`: delta columns (`get_with_deltas`).
- `Client`: metric selection, the `_total` classifier, and the fetch pipeline.
- `Driver`: `Prometheus.get_metric` and `Prometheus.get_metrics`.

## Model

| member | source | states |
|---|---|---|
| Window.ResolveWindow | PyPrometheusQueryClient.py:89-110 | Fails exactly when now minus one hour underflows or a given start or end does not parse, with that error. On success both strings parse, a truthy start or end is sent unchanged, a missing start is one hour before now, a missing end is now, and the span and step follow the step rule |
| Window.ResolveStep | PyPrometheusQueryClient.py:104-110 | Spans over 5,500,000 s get a floored step s with 11000·s ≤ span < 11000·(s+1), even when the caller gave a step. Otherwise a truthy caller step is kept. Otherwise the step is the nearest whole number to span/500, ties to even |
| Window.RoundHalfEven | PyPrometheusQueryClient.py:105 | Python's round: the result is within one half of x, and is even on a tie |
| Window.StepText | PyPrometheusQueryClient.py:105-109 | A caller's step is sent unchanged. A rounded step is its decimal number followed by `s`, and a floored one its decimal number followed by `.0s`. The number reads back as the step and is printed the way Python prints an integer: no leading zero and no `-0` |
| Window.DefaultWindowIsOneHour | PyPrometheusQueryClient.py:91-102 | Without start and end the window spans 3600 s and ends at the printed now |
| Window.StartDefaultIgnoresEnd | PyPrometheusQueryClient.py:91-102 | A missing start comes from the clock even when an end is given |
| Window.ShortWindowStepZero | PyPrometheusQueryClient.py:104-105 | The default step has no lower bound: windows under 250 s get step `0s` |
| Window.OverrideIgnoresGivenStep | PyPrometheusQueryClient.py:107-109 | Above the threshold the override replaces any caller step with a floored step of at least 500 s |
| Window.OverrideCanExceedLimit | PyPrometheusQueryClient.py:107-109 | The override does not keep the window within 11000 steps: 5,510,999 s gets a 500 s step |
| Timestamps.MinusOneHour | PyPrometheusQueryClient.py:92 | The result is exactly 3600 s earlier, keeping minute and second. It is absent exactly for the first hour of year 1, where Python overflows |
| Timestamps.FormatThenParse | PyPrometheusQueryClient.py:95-102 | Parsing a printed date-time gives back the same date-time |
| Timestamps.Format | PyPrometheusQueryClient.py:95-100 | The printed form has 20 characters with `-`, `-`, `T`, `:`, `:` and `Z` at their fixed places |
| Timestamps.Parse | PyPrometheusQueryClient.py:97-102 | A rejected string fails with `BadTimestamp` naming it. Every accepted string is the printed form of the date-time it yields |
| Timestamps.FormatExample | PyPrometheusQueryClient.py:68-69 | 2005-06-01 13:33:00 prints as `2005-06-01T13:33:00Z` |
| Query.DatetimeToStr | PyPrometheusQueryClient.py:68-69 | A date-time becomes a 20-character string that parses back to it. Any other value is returned unchanged |
| Query.QueryParams | PyPrometheusQueryClient.py:72-80 | The keys are exactly query, start, end and step, plus timeout exactly when the timeout is truthy. Each value is the given one, and the timeout text parses back to the timeout |
| Query.Unwrap | PyPrometheusQueryClient.py:36-41 | Success exactly when the status is `success`, yielding the reply's data. Any other status fails with the reply's errorType and error. A failed transport fails with its reason |
| Query.DoQuery | PyPrometheusQueryClient.py:43-45 | The forwarding `_do_query` evidently intends: the reply to the request reaches the caller, succeeding exactly when the server reports success, and otherwise failing with a server or transport error |
| Query.DoQueryAsWritten | PyPrometheusQueryClient.py:28-44 | `_do_query` as written fails on every instance: a missing mangled attribute raises `AttributeError`, and the stored function would raise `TypeError` if it were found |
| Query.DispatchAsWrittenLosesReply | PyPrometheusQueryClient.py:30 | The mangled name `_PrometheusQueryClient__query_function` is not among the attributes `__init__` sets. So even a successful server reply is lost as written, while the intended forwarding returns its data |
| Query.QueryRange | PyPrometheusQueryClient.py:72-86 | Succeeds exactly when the reply to the range-query request is a success, yielding its data |
| Text.IntTextRoundTrip | PyPrometheusQueryClient.py:105 | The decimal rendering of an integer parses back to that integer |
| Text.PlainIntIsIntText | PyPrometheusQueryClient.py:105 | Any text with an optional minus sign and digits without a leading zero is exactly how that integer is printed, so a number has only one such text |
| Text.Find | PyPrometheusQueryClient.py:62 | Substring search: true exactly when the target occurs at some position |
| Tables.ColumnName | PyPrometheusQueryClient.py:121 | Fails on the first missing label, `__name__` before `instance`. Otherwise the name is `__name__`, then ` - `, then `instance` |
| Tables.Put | PyPrometheusQueryClient.py:142 | An existing name is overwritten in place and a new name is appended. The name then holds the values and every other column is unchanged |
| Tables.ToColumns | PyPrometheusQueryClient.py:121-125 | Succeeds exactly when every series has both labels. The names are exactly the series' names, at most one column per series, and each name holds the values of the last series that has it |
| Tables.ToColumnsFirstError | PyPrometheusQueryClient.py:121-123 | The series are read in order, so the first series lacking `__name__` or `instance` decides the error: its missing key is the one reported |
| Tables.SingleSeriesOneColumn | PyPrometheusQueryClient.py:121-125 | One series of N samples becomes one column of N values |
| Tables.LaterSeriesWins | PyPrometheusQueryClient.py:121-123 | Two series with the same name leave one column holding the later series' values |
| Augment.DeltaColumn | PyPrometheusQueryClient.py:135-141 | Same length as the column, first element 0, and element i is item i minus item i-1 |
| Augment.DeltasThenRunningSum | PyPrometheusQueryClient.py:137-141 | Summing the deltas from the first value rebuilds the column |
| Augment.RunningSumThenDeltas | PyPrometheusQueryClient.py:137-141 | The deltas of running sums that start with 0 are those sums' increments |
| Augment.NonDecreasingIffDeltasNonNegative | PyPrometheusQueryClient.py:137-141 | A column never decreases exactly when all its deltas are non-negative |
| Augment.AddDeltasAppends | PyPrometheusQueryClient.py:134-142 | Without a `delta_` name clash, k columns become 2k: the originals unchanged and in place, then `delta_<name>` of each, in order |
| Augment.AugmentedLookup | PyPrometheusQueryClient.py:134-142 | Without a clash, each original column reads the same afterwards, and its delta column holds its deltas |
| Augment.CounterDeltasNonNegative | PyPrometheusQueryClient.py:134-142 | Without a clash, the delta column of a never-decreasing column has no negative entry |
| Augment.ClashExample | PyPrometheusQueryClient.py:134-142 | With columns `a` and `delta_a`, the old `delta_a` is overwritten, and `delta_delta_a` is computed from the overwritten values |
| Augment.AddDeltasNames | PyPrometheusQueryClient.py:134-142 | Every column name stays and gains its `delta_` name, no other name appears, and the frame at most doubles |
| Client.Select | PyPrometheusQueryClient.py:59-64 | A name is selected exactly when it is in the list and contains some target. There are never more results than names |
| Client.SelectIsSubsequence | PyPrometheusQueryClient.py:59-64 | The selection keeps the order of the server's list |
| Client.SelectCounts | PyPrometheusQueryClient.py:59-64 | Each matching name occurs in the selection exactly as often as in the list, and no other name occurs |
| Client.AnyTarget | PyPrometheusQueryClient.py:62 | True exactly when some target occurs in the item |
| Client.MetricsStartingWith | PyPrometheusQueryClient.py:59-64 | The loop computes exactly the selection |
| Client.IsCumulative | PyPrometheusQueryClient.py:152 | A metric is cumulative exactly when `_total` occurs in its name |
| Client.CumulativeIffTotal | PyPrometheusQueryClient.py:152 | Matching some entry of the marker list `['_total']` is the same as containing `_total` |
| Client.ClassifierExamples | PyPrometheusQueryClient.py:152 | `node_network_transmit_bytes_total` is cumulative and `node_load1` is not |
| Client.GetGeneral | PyPrometheusQueryClient.py:89-115 | Window errors are returned. Otherwise exactly the four parameters query, start, end and step are sent, and the reply is unwrapped |
| Client.GetWithoutDeltas | PyPrometheusQueryClient.py:118-127 | Succeeds exactly when the query succeeds and every series has both labels. The frame then collects the reply's series |
| Client.GetWithDeltas | PyPrometheusQueryClient.py:130-144 | Same success and errors as without deltas, and the frame is the base frame with delta columns added |
| Client.GetMetric | PyPrometheusQueryClient.py:147-158 | A metric the server does not list is refused before any query. Otherwise it succeeds exactly when the base fetch does, with the same error |
| Client.GetMetricDeltasIffCumulative | PyPrometheusQueryClient.py:152-156 | Without a clash, a cumulative metric's frame is the base columns followed by their deltas. Any other metric's frame is the base frame |
| Driver.ConfigGet | PyPrometheus.py:82 | A configured metric yields its own configuration object. An unconfigured one yields the empty object |
| Driver.PolicyOf | PyPrometheus.py:94-100 | Absent or null `deltas` means automatic. A value equal to True (True or 1) forces deltas. Anything else suppresses them |
| Driver.PolicyExamples | PyPrometheus.py:94-100 | Absent and null are automatic, true and 1 force, and false and the string "true" suppress |
| Driver.Prefer | PyPrometheus.py:57-60 | A truthy argument wins. Otherwise the constructor's value is used |
| Driver.EffectiveMetadata | PyPrometheus.py:81-82 | Truthy metadata is kept. None or `{}` is replaced by the configuration's entry |
| Driver.Fetch | PyPrometheus.py:94-100 | Succeeds or fails exactly as the base fetch. Forced deltas add delta columns, suppressed ones leave the base frame, and automatic ones follow the `_total` rule |
| Driver.GetMetricFor | PyPrometheus.py:54-92 | Guard failures leave the state unchanged: a missing window, then an empty name, then a name not on the server. Past the guards only the metric's entry is written, with the effective metadata and the metric as title. Success stores and returns the fetched data. A failed fetch leaves the stub |
| Driver.Record | PyPrometheus.py:89-105 | The stub is stored before the fetch: on failure the entry holds only metadata and title, and the fetch error is returned. On success the entry also holds the data and frame and is returned. No other entry or field changes |
| Driver.GetMetricForOutcome | PyPrometheus.py:93-103 | Past the guards, `get_metric` succeeds exactly when the base fetch does, with the same error or reply data. Forced deltas give the base frame with delta columns, suppressed ones the base frame, automatic ones follow the `_total` rule |
| Driver.PolicyShapesFrame | PyPrometheus.py:94-100 | With `deltas: true` and no clash the frame is base plus delta columns. With `deltas: false` it is the base frame |
| Driver.MetadataFromConfig | PyPrometheus.py:81-91 | Called without metadata, the entry stores the configuration's object for the metric |
| Driver.GetMetricForStores | PyPrometheus.py:54-105 | `get_metric`, with or without an explicit window, keeps every field but `prometheus_data`, adds or changes only the metric's entry, and on success leaves fetched data in it |
| Driver.GetMetricForIgnoresStore | PyPrometheus.py:54-105 | For any window the call passes, the result of `get_metric` does not depend on what `prometheus_data` already holds |
| Driver.GetMetricVisitorStores | PyPrometheus.py:49 | The call `get_metrics` makes per metric stores only that metric's entry, with fetched data on success |
| Driver.GetMetricVisitorIgnoresStore | PyPrometheus.py:49 | The outcome of that call does not depend on entries stored earlier in the loop |
| Driver.Walk | PyPrometheus.py:38-49 | For any per-metric call that stores only its own entry, the loop changes no field but `prometheus_data` and never removes an entry |
| Driver.WalkKeepsUnvisited | PyPrometheus.py:38-49 | An existing entry whose name the loop does not reach keeps its value |
| Driver.WalkAddsOnlyVisited | PyPrometheus.py:38-49 | A name the loop does not reach gains no entry |
| Driver.WalkSkipsInactive | PyPrometheus.py:40-41 | A metric whose `active` equals False is skipped and gains no entry |
| Driver.WalkMeetsKnownMetrics | PyPrometheus.py:39-44 | When the loop finishes without error, every entry had `active`, and every metric not marked inactive is on the server |
| Driver.WalkFetchesActive | PyPrometheus.py:39-49 | When the loop finishes without error, every entry had `active`, and every metric not marked inactive has fetched data |
| Driver.WalkAbortsAtUnknown | PyPrometheus.py:39-49 | If every active entry before entry j is on the server and its call succeeds, and entry j is active but not on the server, the loop fails with `UnknownMetric` for entry j |
| Driver.WalkKeepsFetchedBefore | PyPrometheus.py:39-49 | Under the same conditions, every active entry before j holds fetched data after the failure |
| Driver.GetMetrics | PyPrometheus.py:38-49 | Over the whole configuration, the configuration and metric list are kept and entries are only added |
| Driver.GetMetricsCoversConfig | PyPrometheus.py:38-49 | After a successful `get_metrics`, every configured entry had `active`, every metric not marked inactive is on the server and has fetched data, and an inactive metric gained no entry |
| Driver.UnknownFirstMetricAborts | PyPrometheus.py:43-44 | An active first metric unknown to the server raises before anything is stored |
| Driver.WalkAbortAddsNoEntry | PyPrometheus.py:43-44 | When the loop aborts at an unknown entry j, an entry j that had no stored entry still has none: the check runs before `get_metric` is called |
| Driver.FailureKeepsEarlierEntries | PyPrometheus.py:39-49 | No rollback: if every active metric before entry j is on the server and fetches, and entry j is active but unknown, `get_metrics` fails with `UnknownMetric` for entry j. Every earlier active metric keeps its fetched data, and entry j gets no entry unless it already had one |

## Left out

- HTTP and JSON decoding (`requests.get`, `resp.json()`, `urljoin`, `ssl_verify`) are the `transport` parameter. The request path is the constant `api/v1/query_range`.
- `_get_all_metrics` (PyPrometheusQueryClient.py:47-56) is network I/O. The server's metric list is an input.
- `_load_metrics_config` (PyPrometheus.py:21-36) is file-system I/O. The configuration is an input, already parsed.
- The disk cache (PyPrometheusQueryClient.py:22-30) is never enabled, because its condition ends in `and False`.
- The query dispatch (PyPrometheusQueryClient.py:28-30 and 44) is modelled as intended, not as written. `setattr` stores the literal name `__query_function`, but `self.__query_function` at line 44 is looked up under the mangled name `_PrometheusQueryClient__query_function`, so as written `_do_query` raises `AttributeError`. Were the lookup to succeed, the call at line 29 hands `self` to the already bound `__do_query_direct` a second time, which raises `TypeError`. As written, `query_range`, `get_general`, `get_without_deltas`, `get_with_deltas` and every `get_metric` past its guards therefore raise. `Prometheus.get_metric` then leaves only the metadata/title stub, and `get_metrics` stops at the first active listed metric. The rest of the model uses `Query.DoQuery`, with the `transport` parameter standing for the intended call; `Query.DoQueryAsWritten` records the code as written (see "## Findings").
- `print` output (the step warning and the progress line of `get_metrics`) has no effect on results.
- `datetime.now()` is the `now` parameter, a civil date-time in whole seconds. Microseconds, local time zones and daylight-saving jumps of `.timestamp()` are not modelled: spans are differences of civil seconds.
- Timestamps.Parse: accepts only the exact printed form: zero-padded ASCII digits of exactly the printed width, and upper-case `T` and `Z`. CPython's `strptime` also accepts unpadded fields such as `2005-6-1T1:2:3Z`, lower-case `t` and `z` (it matches the format case-insensitively), and non-ASCII Unicode decimal digits. The model rejects all of these with `BadTimestamp`, where `get_general` would accept them and send the string unchanged.
- Timestamps.Format: always prints four year digits. For years below 1000, platforms differ in how `%Y` pads.
- Sample timestamps and the frame's time index are kept only as data. pandas index alignment and the NaN filling of series with different times are not modelled. Columns hold the values in sample order.
- Values are exact reals. The rounding of `np.float64` and float subtraction is not modelled.
- Window.ResolveStep: the step over 11000 is computed exactly on the whole-second span, not with float64 division.
- Driver.GetMetricFor: `starttime` and `endtime` are optional strings. A `datetime` passed there would reach `strptime` in `get_general` and raise `TypeError`, and that path is not modelled. A `None` metric is merged with the empty name.
- Query.QueryParams: the timeout is an integer, sent as its decimal text. Other timeout types are not modelled.
- Driver.Walk: stated for any per-metric call that keeps every other field and stores only its own entry. `Driver.GetMetrics` instantiates it with `get_metric`, which meets that condition (`Driver.GetMetricVisitorStores`).

## Findings

| source | as written | input that shows it | evidently intended | confidence | as-written member | corrected member |
|---|---|---|---|---|---|---|
| PyPrometheusQueryClient.py:28-44 | `setattr` stores `'__query_function'`, but `self.__query_function` inside the class is mangled to `_PrometheusQueryClient__query_function`. The stored function also passes `self` twice to the bound `__do_query_direct` | any query, even one the server answers with `status == 'success'`: `_do_query` raises `AttributeError` | `_do_query(path, params)` sends the request and returns the reply's data or raises its error | high (not executed) | Query.DoQueryAsWritten, Query.DispatchAsWrittenLosesReply | Query.DoQuery |

=== FILE: augment.dfy ===
/** Delta augmentation of `get_with_deltas`: for every column of the frame, a
    `delta_<column>` column of positional successive differences whose first
    element is 0. */
module Augment {
  import opened Tables

  /** Positional successive differences of a column; the first element is 0. */
  function Deltas(v: seq<real>): seq<real> {
    seq(|v|, i requires 0 <= i < |v| => if i == 0 then 0.0 else v[i] - v[i - 1])
  }

  /** The loop over `enumerate(items)` that builds `tmp`. */
  method DeltaColumn(items: seq<real>) returns (tmp: seq<real>)
    ensures |tmp| == |items|
    ensures |items| > 0 ==> tmp[0] == 0.0
    ensures forall i :: 0 < i < |items| ==> tmp[i] == items[i] - items[i - 1]
    ensures tmp == Deltas(items)
  {
    tmp := [];
    var index := 0;
    while index < |items|
      invariant 0 <= index <= |items|
      invariant |tmp| == index
      invariant forall i :: 0 <= i < index ==> tmp[i] == Deltas(items)[i]
    {
      if index == 0 {
        tmp := tmp + [0.0];
      } else {
        tmp := tmp + [items[index] - items[index - 1]];
      }
      index := index + 1;
    }
  }

  /** Running sums starting from `base`: the inverse of taking deltas. */
  function RunningSum(base: real, d: seq<real>): (r: seq<real>)
    ensures |r| == |d|
    decreases |d|
  {
    if |d| == 0 then [] else var h := base + d[0]; [h] + RunningSum(h, d[1..])
  }

  lemma {:induction false} RunningSumOfDeltasFrom(v: seq<real>, k: int)
    requires 1 <= k <= |v|
    ensures RunningSum(v[k - 1], Deltas(v)[k..]) == v[k..]
    decreases |v| - k
  {
    if k < |v| {
      var d := Deltas(v)[k..];
      assert d[0] == v[k] - v[k - 1];
      assert d[1..] == Deltas(v)[k + 1..];
      RunningSumOfDeltasFrom(v, k + 1);
      assert v[k..] == [v[k]] + v[k + 1..];
    }
  }

  /** A delta column loses nothing but the first value: summing it from `v[0]` rebuilds `v`. */
  lemma DeltasThenRunningSum(v: seq<real>)
    requires |v| > 0
    ensures RunningSum(v[0], Deltas(v)) == v
  {
    RunningSumOfDeltasFrom(v, 1);
    assert v == [v[0]] + v[1..];
  }

  lemma {:induction false} RunningSumStep(base: real, d: seq<real>, i: int)
    requires 0 < i < |d|
    ensures RunningSum(base, d)[i] == RunningSum(base, d)[i - 1] + d[i]
    decreases i
  {
    var h := base + d[0];
    if i > 1 {
      RunningSumStep(h, d[1..], i - 1);
    }
  }

  /** Taking deltas of running sums gives the sums back, provided they start with 0. */
  lemma RunningSumThenDeltas(base: real, d: seq<real>)
    requires |d| > 0 ==> d[0] == 0.0
    ensures Deltas(RunningSum(base, d)) == d
  {
    var r := RunningSum(base, d);
    forall i | 0 < i < |d| ensures Deltas(r)[i] == d[i] {
      RunningSumStep(base, d, i);
    }
  }

  ghost predicate NonDecreasing(v: seq<real>) {
    forall i, j :: 0 <= i <= j < |v| ==> v[i] <= v[j]
  }

  lemma {:induction false} ChainUp(v: seq<real>, i: int, j: int)
    requires forall k :: 0 < k < |v| ==> v[k - 1] <= v[k]
    requires 0 <= i <= j < |v|
    ensures v[i] <= v[j]
    decreases j - i
  {
    if i < j {
      ChainUp(v, i, j - 1);
    }
  }

  /** A column never decreases exactly when every delta is non-negative. */
  lemma NonDecreasingIffDeltasNonNegative(v: seq<real>)
    ensures NonDecreasing(v) <==> forall i :: 0 <= i < |v| ==> Deltas(v)[i] >= 0.0
  {
    if forall i :: 0 <= i < |v| ==> Deltas(v)[i] >= 0.0 {
      assert forall k :: 0 < k < |v| ==> v[k - 1] <= v[k] by {
        forall k | 0 < k < |v| ensures v[k - 1] <= v[k] {
          assert Deltas(v)[k] >= 0.0;
        }
      }
      forall i, j | 0 <= i <= j < |v| ensures v[i] <= v[j] {
        ChainUp(v, i, j);
      }
    }
  }

  /** The column name `'delta_{}'.format(col)`. */
  function DeltaName(c: string): string {
    "delta_" + c
  }

  function Names(t: seq<Column>): (ns: seq<string>)
    ensures |ns| == |t| && forall i :: 0 <= i < |t| ==> ns[i] == t[i].name
  {
    seq(|t|, i requires 0 <= i < |t| => t[i].name)
  }

  /** The loop body for each column name in `cols`: read the column as it is now, then store
      its deltas under `delta_<name>` (overwriting an existing column of that name). */
  function AddDeltasOver(t: Table, cols: seq<string>): (r: Table)
    requires forall k :: 0 <= k < |cols| ==> cols[k] in NameSet(t)
    ensures NameSet(t) <= NameSet(r)
    decreases |cols|
  {
    if cols == [] then t
    else
      var t1 := Put(t, DeltaName(cols[0]), Deltas(Lookup(t, cols[0])));
      AddDeltasOver(t1, cols[1..])
  }

  /** `for col in df.columns: ...`: the column list is taken once, before any column is added. */
  function AddDeltas(t: Table): Table {
    assert forall k :: 0 <= k < |t| ==> t[k].name in NameSet(t) by {
      forall k | 0 <= k < |t| ensures t[k].name in NameSet(t) { assert t[k] in t; }
    }
    AddDeltasOver(t, Names(t))
  }

  /** Over a column list: every old name stays, each listed name gains its `delta_` name, and
      each round adds at most one column. */
  lemma {:induction false} AddDeltasOverNames(t: Table, cols: seq<string>)
    requires forall k :: 0 <= k < |cols| ==> cols[k] in NameSet(t)
    ensures forall n :: n in NameSet(t) ==> n in NameSet(AddDeltasOver(t, cols))
    ensures forall k :: 0 <= k < |cols| ==> DeltaName(cols[k]) in NameSet(AddDeltasOver(t, cols))
    ensures |t| <= |AddDeltasOver(t, cols)| <= |t| + |cols|
    decreases |cols|
  {
    if cols != [] {
      var t1 := Put(t, DeltaName(cols[0]), Deltas(Lookup(t, cols[0])));
      var rest := cols[1..];
      AddDeltasOverNames(t1, rest);
      forall k | 0 < k < |cols| ensures cols[k] == rest[k - 1] { }
    }
  }

  /** Over a column list, no name appears but the old ones and the listed names' `delta_` names. */
  lemma {:induction false} AddDeltasOverOnly(t: Table, cols: seq<string>)
    requires forall k :: 0 <= k < |cols| ==> cols[k] in NameSet(t)
    ensures forall n :: n in NameSet(AddDeltasOver(t, cols)) ==>
      n in NameSet(t) || exists k :: 0 <= k < |cols| && n == DeltaName(cols[k])
    decreases |cols|
  {
    if cols != [] {
      var t1 := Put(t, DeltaName(cols[0]), Deltas(Lookup(t, cols[0])));
      var rest := cols[1..];
      AddDeltasOverOnly(t1, rest);
      forall n | n in NameSet(AddDeltasOver(t1, rest))
        ensures n in NameSet(t) || exists k :: 0 <= k < |cols| && n == DeltaName(cols[k])
      {
        if n !in NameSet(t1) {
          var k :| 0 <= k < |rest| && n == DeltaName(rest[k]);
          assert n == DeltaName(cols[k + 1]);
        } else if n !in NameSet(t) {
          assert n == DeltaName(cols[0]);
        }
      }
    }
  }

  /** `get_with_deltas` keeps every column name and adds `delta_<name>` for each; no other
      name appears, and the frame grows by at most one column per original column. */
  lemma AddDeltasNames(t: Table)
    ensures forall n :: n in NameSet(t) ==> n in NameSet(AddDeltas(t)) && DeltaName(n) in NameSet(AddDeltas(t))
    ensures forall n :: n in NameSet(AddDeltas(t)) ==>
      n in NameSet(t) || exists m :: m in NameSet(t) && n == DeltaName(m)
    ensures |t| <= |AddDeltas(t)| <= 2 * |t|
  {
    var ns := Names(t);
    forall k | 0 <= k < |t| ensures ns[k] in NameSet(t) { assert t[k] in t; }
    AddDeltasOverNames(t, ns);
    AddDeltasOverOnly(t, ns);
    forall n | n in NameSet(t) ensures DeltaName(n) in NameSet(AddDeltas(t)) {
      var col :| col in t && col.name == n;
      var k :| 0 <= k < |t| && t[k] == col;
      assert DeltaName(ns[k]) == DeltaName(n);
    }
  }

  /** The delta column of each column, in column order. */
  function DeltaColumns(t: seq<Column>): (d: seq<Column>)
    ensures |d| == |t|
  {
    seq(|t|, i requires 0 <= i < |t| => Column(DeltaName(t[i].name), Deltas(t[i].values)))
  }

  /** No `delta_<name>` of a column is already the name of a column. */
  predicate NoClash(t: Table) {
    forall i :: 0 <= i < |t| ==> DeltaName(t[i].name) !in NameSet(t)
  }

  lemma DeltaNameInjective(a: string, b: string)
    ensures DeltaName(a) == DeltaName(b) ==> a == b
  {
    if DeltaName(a) == DeltaName(b) {
      assert a == DeltaName(a)[6..];
    }
  }

  /** The frame after `k` loop rounds: the originals followed by the first `k` delta columns. */
  lemma PartialDistinct(t: Table, k: int)
    requires NoClash(t) && 0 <= k <= |t|
    ensures DistinctNames(t + DeltaColumns(t)[..k])
  {
    var u := t + DeltaColumns(t)[..k];
    forall i, j | 0 <= i < j < |u| ensures u[i].name != u[j].name {
      if j >= |t| {
        if i < |t| {
          assert u[i] in t;
          assert u[j].name == DeltaName(t[j - |t|].name);
        } else {
          DeltaNameInjective(t[i - |t|].name, t[j - |t|].name);
        }
      }
    }
  }

  /** Every name still to visit is a column of the partial frame. */
  lemma PendingNamesPresent(t: Table, k: int)
    requires NoClash(t) && 0 <= k <= |t|
    ensures DistinctNames(t + DeltaColumns(t)[..k])
    ensures forall m :: 0 <= m < |t| - k ==> Names(t)[k..][m] in NameSet(t + DeltaColumns(t)[..k])
  {
    PartialDistinct(t, k);
    var u: Table := t + DeltaColumns(t)[..k];
    forall m | 0 <= m < |t| - k ensures Names(t)[k..][m] in NameSet(u) {
      assert u[k + m] in u;
    }
  }

  /** The columns of the frame after `k` rounds: originals first, then delta columns. */
  lemma PartialAt(t: Table, k: int, i: int)
    requires 0 <= k <= |t| && 0 <= i < |t| + k
    ensures (t + DeltaColumns(t)[..k])[i].name == if i < |t| then t[i].name else DeltaName(t[i - |t|].name)
  {
  }

  /** Round `k` stores a name that is not yet a column, so it appends. */
  lemma FreshDeltaName(t: Table, k: int)
    requires NoClash(t) && 0 <= k < |t|
    ensures DeltaName(t[k].name) !in NameSet(t + DeltaColumns(t)[..k])
  {
    var u := t + DeltaColumns(t)[..k];
    var col := t[k].name;
    forall i | 0 <= i < |u| ensures u[i].name != DeltaName(col) {
      PartialAt(t, k, i);
      if i < |t| {
        assert t[i] in t;
      } else {
        DeltaNameInjective(t[i - |t|].name, col);
      }
    }
  }

  /** Round `k` appends the delta column of column `k`. */
  lemma RoundAppends(t: Table, k: int)
    requires NoClash(t) && 0 <= k < |t|
    ensures DistinctNames(t + DeltaColumns(t)[..k])
    ensures t[k].name in NameSet(t + DeltaColumns(t)[..k])
    ensures var u: Table := t + DeltaColumns(t)[..k];
      Put(u, DeltaName(t[k].name), Deltas(Lookup(u, t[k].name))) == t + DeltaColumns(t)[..k + 1]
  {
    PartialDistinct(t, k);
    FreshDeltaName(t, k);
    var u: Table := t + DeltaColumns(t)[..k];
    LookupAt(u, k);
    var col := t[k].name;
    assert Lookup(u, col) == t[k].values;
    var d := Column(DeltaName(col), Deltas(t[k].values));
    assert Put(u, DeltaName(col), Deltas(Lookup(u, col))) == u + [d];
    assert DeltaColumns(t)[..k + 1] == DeltaColumns(t)[..k] + [d];
    assert u + [d] == t + (DeltaColumns(t)[..k] + [d]);
  }

  lemma {:induction false} AddDeltasFrom(t: Table, k: int)
    requires NoClash(t) && 0 <= k <= |t|
    ensures DistinctNames(t + DeltaColumns(t)[..k])
    ensures forall m :: 0 <= m < |t| - k ==> Names(t)[k..][m] in NameSet(t + DeltaColumns(t)[..k])
    ensures AddDeltasOver(t + DeltaColumns(t)[..k], Names(t)[k..]) == t + DeltaColumns(t)
    decreases |t| - k
  {
    PendingNamesPresent(t, k);
    if k == |t| {
      assert DeltaColumns(t)[..k] == DeltaColumns(t);
    } else {
      assert Names(t)[k..][0] == t[k].name;
      RoundAppends(t, k);
      assert Names(t)[k..][1..] == Names(t)[k + 1..];
      AddDeltasFrom(t, k + 1);
    }
  }

  /** Without a name clash, k columns become 2k: the originals unchanged and in place,
      followed by `delta_<name>` for each, in the same order. */
  lemma AddDeltasAppends(t: Table)
    requires NoClash(t)
    ensures AddDeltas(t) == t + DeltaColumns(t)
    ensures |AddDeltas(t)| == 2 * |t|
    ensures AddDeltas(t)[..|t|] == t
    ensures forall i :: 0 <= i < |t| ==>
      AddDeltas(t)[|t| + i] == Column(DeltaName(t[i].name), Deltas(t[i].values))
  {
    AddDeltasFrom(t, 0);
    assert t + DeltaColumns(t)[..0] == t;
    assert Names(t)[0..] == Names(t);
  }

  lemma AugmentedAt(t: Table, i: int)
    requires NoClash(t) && 0 <= i < |t|
    ensures |AddDeltas(t)| == 2 * |t|
    ensures AddDeltas(t)[i] == t[i]
    ensures AddDeltas(t)[|t| + i] == Column(DeltaName(t[i].name), Deltas(t[i].values))
  {
    AddDeltasAppends(t);
    assert AddDeltas(t)[..|t|][i] == t[i];
  }

  /** Without a name clash, after augmentation `df[c]` is unchanged and `df['delta_' + c]`
      holds the deltas of `df[c]`. */
  lemma AugmentedLookup(t: Table, i: int)
    requires NoClash(t) && 0 <= i < |t|
    ensures t[i].name in NameSet(AddDeltas(t))
    ensures Lookup(AddDeltas(t), t[i].name) == t[i].values
    ensures DeltaName(t[i].name) in NameSet(AddDeltas(t))
    ensures Lookup(AddDeltas(t), DeltaName(t[i].name)) == Deltas(t[i].values)
  {
    var r := AddDeltas(t);
    AugmentedAt(t, i);
    var k := |t| + i;
    assert r[i].name == t[i].name && r[i].values == t[i].values;
    assert r[k].name == DeltaName(t[i].name) && r[k].values == Deltas(t[i].values);
    LookupAt(r, i);
    LookupAt(r, k);
  }

  /** Without a name clash, `delta_<c>` of a never-decreasing column `c` has no negative entry. */
  lemma CounterDeltasNonNegative(t: Table, i: int)
    requires NoClash(t) && 0 <= i < |t| && NonDecreasing(t[i].values)
    ensures DeltaName(t[i].name) in NameSet(AddDeltas(t))
    ensures |Lookup(AddDeltas(t), DeltaName(t[i].name))| == |t[i].values|
    ensures forall j :: 0 <= j < |t[i].values| ==> Lookup(AddDeltas(t), DeltaName(t[i].name))[j] >= 0.0
  {
    AugmentedLookup(t, i);
    NonDecreasingIffDeltasNonNegative(t[i].values);
  }

  /** The first loop round of the clash example: `delta_a` is overwritten in place. */
  lemma ClashFirstRound(t: Table)
    requires t == [Column("a", [1.0, 3.0]), Column("delta_a", [5.0, 5.0])]
    ensures Put(t, DeltaName("a"), Deltas(Lookup(t, "a")))
      == [Column("a", [1.0, 3.0]), Column("delta_a", [0.0, 2.0])]
  {
    LookupAt(t, 0);
    LookupAt(t, 1);
    assert Deltas([1.0, 3.0]) == [0.0, 2.0];
    assert DeltaName("a") == "delta_a";
  }

  /** The second loop round of the clash example: `delta_delta_a` is appended. */
  lemma ClashSecondRound(t: Table)
    requires t == [Column("a", [1.0, 3.0]), Column("delta_a", [0.0, 2.0])]
    ensures Put(t, DeltaName("delta_a"), Deltas(Lookup(t, "delta_a")))
      == t + [Column("delta_delta_a", [0.0, 2.0])]
  {
    LookupAt(t, 1);
    assert Deltas([0.0, 2.0]) == [0.0, 2.0];
    assert DeltaName("delta_a") == "delta_delta_a";
    assert "delta_delta_a" !in NameSet(t);
  }

  /** A clash: a frame holding `a` and `delta_a` ends with three columns, the old `delta_a`
      replaced by the deltas of `a`, and `delta_delta_a` taken from the replaced values. */
  lemma ClashExample(t: Table)
    requires t == [Column("a", [1.0, 3.0]), Column("delta_a", [5.0, 5.0])]
    ensures AddDeltas(t)
      == [Column("a", [1.0, 3.0]), Column("delta_a", [0.0, 2.0]), Column("delta_delta_a", [0.0, 2.0])]
  {
    assert Names(t) == ["a", "delta_a"];
    ClashFirstRound(t);
    var t1: Table := [Column("a", [1.0, 3.0]), Column("delta_a", [0.0, 2.0])];
    ClashSecondRound(t1);
    var t2 := t1 + [Column("delta_delta_a", [0.0, 2.0])];
    assert ["delta_a"][1..] == [];
    assert AddDeltasOver(t1, ["delta_a"]) == AddDeltasOver(t2, []);
    assert Names(t)[1..] == ["delta_a"];
    assert AddDeltasOver(t, Names(t)) == AddDeltasOver(t1, ["delta_a"]);
  }
}

=== FILE: base.dfy ===
/** Failure-compatible wrappers shared by every module of the Prometheus client model,
    and the errors the client raises. */
module Base {

  /** Python's `None` versus a present value. */
  datatype Option<+T> = None | Some(value: T) {
    predicate IsFailure() { None? }

    function PropagateFailure<U>(): Option<U>
      requires None?
    {
      None
    }

    function Extract(): T
      requires Some?
    {
      value
    }
  }

  /** The exceptions the client raises, one constructor per distinct raise site. */
  datatype Error =
    | UnknownMetric(name: string)        // "Metric '...' is unknown"
    | NotOnServer(name: string)          // "Metric '...' is not available on the server"
    | EmptyMetric                        // "Metric '{}' cannot be None"
    | MissingWindow                      // "Both starttime and endtime must be set"
    | BadTimestamp(text: string)         // strptime rejected the text
    | ClockUnderflow                     // datetime.now() - 1 hour left the datetime range
    | ServerError(errorType: string, message: string)  // status != 'success'
    | TransportError(reason: string)     // requests / JSON decoding failed
    | MissingKey(key: string)            // KeyError on a dict lookup
    | MissingAttribute(name: string)     // AttributeError on an instance attribute lookup
    | ArgumentMismatch(callee: string)   // TypeError: a call with the wrong number of arguments

  /** A value or the exception that replaced it. */
  datatype Result<+T> = Ok(value: T) | Err(error: Error) {
    predicate IsFailure() { Err? }

    function PropagateFailure<U>(): Result<U>
      requires Err?
    {
      Err(error)
    }

    function Extract(): T
      requires Ok?
    {
      value
    }
  }

  /** Python truthiness of an optional string: `None` and `''` are both falsy. */
  predicate Truthy(s: Option<string>) {
    s.Some? && |s.value| > 0
  }
}

=== FILE: client.dfy ===
/** `PrometheusQueryClient`'s decisions above the wire: selecting metric names by
    substring, classifying counters by the `_total` marker, and the fetch pipeline
    `get_general` -> `get_without_deltas` -> `get_with_deltas` -> `get_metric`. */
module Client {
  import opened Base
  import opened Text
  import opened Timestamps
  import opened Window
  import opened Query
  import opened Tables
  import opened Augment

  /** `any(target in item for target in targets)`. */
  predicate MatchesAny(item: string, targets: seq<string>) {
    exists k :: 0 <= k < |targets| && Contains(item, targets[k])
  }

  /** The names of `metrics`, in order, that contain some target. */
  function Select(metrics: seq<string>, targets: seq<string>): (r: seq<string>)
    ensures forall x :: x in r <==> x in metrics && MatchesAny(x, targets)
    ensures |r| <= |metrics|
  {
    if metrics == [] then []
    else if MatchesAny(metrics[0], targets) then [metrics[0]] + Select(metrics[1..], targets)
    else Select(metrics[1..], targets)
  }

  /** Every occurrence of a matching name is kept and no other name is: the selection holds
      each matching name exactly as often as the list does. */
  lemma {:induction false} SelectCounts(metrics: seq<string>, targets: seq<string>)
    ensures forall x :: multiset(Select(metrics, targets))[x]
                        == if MatchesAny(x, targets) then multiset(metrics)[x] else 0
    decreases |metrics|
  {
    if metrics != [] {
      SelectCounts(metrics[1..], targets);
      assert metrics == [metrics[0]] + metrics[1..];
    }
  }

  /** `a` is `b` with some elements left out, the rest in their original order. */
  predicate IsSubsequence(a: seq<string>, b: seq<string>)
    decreases |b|
  {
    |a| == 0 || (|b| > 0 && ((a[0] == b[0] && IsSubsequence(a[1..], b[1..])) || IsSubsequence(a, b[1..])))
  }

  /** The selection keeps server-list order: it is a subsequence of the metric list. */
  lemma {:induction false} SelectIsSubsequence(metrics: seq<string>, targets: seq<string>)
    ensures IsSubsequence(Select(metrics, targets), metrics)
    decreases |metrics|
  {
    if metrics != [] {
      SelectIsSubsequence(metrics[1..], targets);
      var r := Select(metrics, targets);
      if MatchesAny(metrics[0], targets) {
        assert r[1..] == Select(metrics[1..], targets);
      }
    }
  }

  /** `any(...)` over the targets, each test a substring search. */
  method AnyTarget(item: string, targets: seq<string>) returns (hit: bool)
    ensures hit <==> MatchesAny(item, targets)
  {
    var k := 0;
    while k < |targets|
      invariant 0 <= k <= |targets|
      invariant forall j :: 0 <= j < k ==> !Contains(item, targets[j])
    {
      var found := Find(item, targets[k]);
      if found {
        return true;
      }
      k := k + 1;
    }
    return false;
  }

  /** `get_metrics_starting_with`: despite its name, a substring filter over the server's
      metric list. */
  method MetricsStartingWith(metrics: seq<string>, targets: seq<string>) returns (results: seq<string>)
    ensures results == Select(metrics, targets)
  {
    results := [];
    var n := 0;
    while n < |metrics|
      invariant 0 <= n <= |metrics|
      invariant results + Select(metrics[n..], targets) == Select(metrics, targets)
    {
      var item := metrics[n];
      assert metrics[n..][1..] == metrics[n + 1..];
      var hit := AnyTarget(item, targets);
      if hit {
        results := results + [item];
      }
      n := n + 1;
    }
  }

  /** The substrings that mark a cumulative counter. */
  const CumulativeMarkers: seq<string> := ["_total"]

  /** `is_cummulative` of `get_metric`: some marker occurs in the name, which for the one
      marker means `_total` does. */
  predicate IsCumulative(metric: string)
    ensures IsCumulative(metric) <==> Contains(metric, "_total")
  {
    CumulativeIffTotal(metric);
    MatchesAny(metric, CumulativeMarkers)
  }

  /** Matching the marker list is the same as containing `_total`. */
  lemma CumulativeIffTotal(metric: string)
    ensures MatchesAny(metric, CumulativeMarkers) <==> Contains(metric, "_total")
  {
    if Contains(metric, "_total") {
      assert Contains(metric, CumulativeMarkers[0]);
    }
  }

  lemma ClassifierExamples()
    ensures IsCumulative("node_network_transmit_bytes_total")
    ensures !IsCumulative("node_load1")
  {
    assert OccursAt("node_network_transmit_bytes_total", "_total", 27);
    assert Contains("node_network_transmit_bytes_total", CumulativeMarkers[0]);
    var s := "node_load1";
    forall i | 0 <= i <= 4 ensures !OccursAt(s, "_total", i) {
      assert s[i + 1] != 't';
      assert s[i..i + 6][1] == s[i + 1];
    }
  }

  /** `get_general`: resolve the window, then send exactly the four range-query parameters. */
  function GetGeneral(query: string, start: Option<string>, end: Option<string>, step: Option<string>,
                      now: DateTime, transport: Transport): (r: Result<QueryData>)
    ensures ResolveWindow(start, end, step, now).Err? ==> r == Err(ResolveWindow(start, end, step, now).error)
    ensures ResolveWindow(start, end, step, now).Ok? ==>
      var w := ResolveWindow(start, end, step, now).value;
      r == Unwrap(transport(QueryRangePath,
        map["query" := query, "start" := w.start, "end" := w.end, "step" := StepText(w.step)]))
  {
    var w :- ResolveWindow(start, end, step, now);
    QueryRange(query, Other(w.start), Other(w.end), StepText(w.step), None, transport)
  }

  /** `get_without_deltas`: the reply data and its columns. */
  function GetWithoutDeltas(query: string, start: Option<string>, end: Option<string>, step: Option<string>,
                            now: DateTime, transport: Transport): (r: Result<(QueryData, Table)>)
    ensures r.Ok? <==>
      GetGeneral(query, start, end, step, now, transport).Ok?
      && AllNamed(GetGeneral(query, start, end, step, now, transport).value.result)
    ensures r.Ok? ==>
      && r.value.0 == GetGeneral(query, start, end, step, now, transport).value
      && |r.value.1| <= |r.value.0.result|
      && Collected(r.value.0.result, r.value.1)
  {
    var data :- GetGeneral(query, start, end, step, now, transport);
    var df :- ToColumns(data.result);
    Ok((data, df))
  }

  /** `get_with_deltas`: the same columns, each followed by its delta column. */
  function GetWithDeltas(query: string, start: Option<string>, end: Option<string>, step: Option<string>,
                         now: DateTime, transport: Transport): (r: Result<(QueryData, Table)>)
    ensures var base := GetWithoutDeltas(query, start, end, step, now, transport);
      && (r.Ok? <==> base.Ok?)
      && (r.Ok? ==> r.value.0 == base.value.0 && r.value.1 == AddDeltas(base.value.1))
      && (r.Err? ==> r.error == base.error)
  {
    var (data, df) :- GetWithoutDeltas(query, start, end, step, now, transport);
    Ok((data, AddDeltas(df)))
  }

  /** `PrometheusQueryClient.get_metric`: refuse a metric the server does not list, then fetch
      with deltas exactly for cumulative counters. */
  function GetMetric(metrics: seq<string>, metric: string, start: Option<string>, end: Option<string>,
                     step: Option<string>, now: DateTime, transport: Transport): (r: Result<(QueryData, Table)>)
    ensures metric !in metrics ==> r == Err(UnknownMetric(metric))
    ensures metric in metrics ==> (r.Ok? <==> GetWithoutDeltas(metric, start, end, step, now, transport).Ok?)
    ensures metric in metrics && r.Err? ==> r.error == GetWithoutDeltas(metric, start, end, step, now, transport).error
  {
    if metric !in metrics then Err(UnknownMetric(metric))
    else if IsCumulative(metric) then GetWithDeltas(metric, start, end, step, now, transport)
    else GetWithoutDeltas(metric, start, end, step, now, transport)
  }

  /** On success, a cumulative metric's frame is its base columns followed by one delta column
      each (absent a `delta_` name clash); any other metric's frame is the base frame. */
  lemma GetMetricDeltasIffCumulative(metrics: seq<string>, metric: string, start: Option<string>,
                                     end: Option<string>, step: Option<string>, now: DateTime,
                                     transport: Transport)
    requires metric in metrics
    requires GetWithoutDeltas(metric, start, end, step, now, transport).Ok?
    requires NoClash(GetWithoutDeltas(metric, start, end, step, now, transport).value.1)
    ensures var base := GetWithoutDeltas(metric, start, end, step, now, transport).value.1;
      var df := GetMetric(metrics, metric, start, end, step, now, transport).value.1;
      && (IsCumulative(metric) ==> |df| == 2 * |base| && df == base + DeltaColumns(base))
      && (!IsCumulative(metric) ==> df == base)
  {
    var base := GetWithoutDeltas(metric, start, end, step, now, transport).value.1;
    AddDeltasAppends(base);
  }
}

=== FILE: driver.dfy ===
/** The `Prometheus` wrapper: a metrics configuration, a default time window, and
    the `prometheus_data` map it fills one metric at a time through the query client. */
module Driver {
  import opened Base
  import opened Timestamps
  import opened Query
  import opened Tables
  import opened Augment
  import opened Client

  /** A JSON value of the configuration file, as far as equality tests on it matter. */
  datatype Json = JNull | JBool(b: bool) | JNum(n: real) | JStr(s: string) | JOther

  /** Python's `v == True`: `True`, and also the number 1. */
  predicate PyEqTrue(v: Json) {
    v == JBool(true) || v == JNum(1.0)
  }

  /** Python's `v == False`: `False`, and also the number 0. */
  predicate PyEqFalse(v: Json) {
    v == JBool(false) || v == JNum(0.0)
  }

  /** One metric's configuration object. */
  type Metadata = map<string, Json>

  predicate DistinctKeys(c: seq<(string, Metadata)>) {
    forall i, j :: 0 <= i < j < |c| ==> c[i].0 != c[j].0
  }

  /** The parsed configuration file: a JSON object, so names are unique and ordered. */
  type Config = c: seq<(string, Metadata)> | DistinctKeys(c) witness []

  /** `self._metrics_config.get(metric, {})`. */
  function ConfigGet(config: Config, metric: string): (md: Metadata)
    ensures (exists i :: 0 <= i < |config| && config[i].0 == metric) ==>
      exists i :: 0 <= i < |config| && config[i].0 == metric && md == config[i].1
    ensures (forall i :: 0 <= i < |config| ==> config[i].0 != metric) ==> md == map[]
  {
    if config == [] then map[]
    else if config[0].0 == metric then config[0].1
    else
      var rest: Config := config[1..];
      var md := ConfigGet(rest, metric);
      assert forall i :: 0 <= i < |rest| ==> rest[i] == config[i + 1];
      md
  }

  /** What `deltas` in the metadata asks for. */
  datatype DeltaPolicy =
    | Auto       // absent or null: the client decides by the `_total` rule
    | Force      // `== True`
    | Suppress   // anything else

  function PolicyOf(md: Metadata): (d: DeltaPolicy)
    ensures d == Auto <==> "deltas" !in md || md["deltas"] == JNull
    ensures d == Force <==> "deltas" in md && PyEqTrue(md["deltas"])
  {
    if "deltas" !in md || md["deltas"] == JNull then Auto
    else if PyEqTrue(md["deltas"]) then Force
    else Suppress
  }

  lemma PolicyExamples()
    ensures PolicyOf(map[]) == Auto
    ensures PolicyOf(map["deltas" := JNull]) == Auto
    ensures PolicyOf(map["deltas" := JBool(true)]) == Force
    ensures PolicyOf(map["deltas" := JNum(1.0)]) == Force
    ensures PolicyOf(map["deltas" := JBool(false)]) == Suppress
    ensures PolicyOf(map["deltas" := JStr("true")]) == Suppress
  {
  }

  /** One entry of `prometheus_data`: the stub `{metadata, title}`, plus `data` and `df`
      once the fetch has succeeded. */
  datatype Entry = Entry(metadata: Metadata, title: string, fetched: Option<(QueryData, Table)>)

  /** The wrapper's state. The query client's metric list is `serverMetrics`. */
  datatype Prometheus = Prometheus(
    starttime: Option<string>,
    endtime: Option<string>,
    config: Config,
    serverMetrics: seq<string>,
    prometheusData: map<string, Entry>)

  /** An argument wins over the constructor's value only when it is truthy. */
  function Prefer(arg: Option<string>, fallback: Option<string>): (r: Option<string>)
    ensures Truthy(arg) ==> r == arg
    ensures !Truthy(arg) ==> r == fallback
  {
    if Truthy(arg) then arg else fallback
  }

  /** Falsy metadata (`None` or `{}`) is looked up in the configuration. */
  function EffectiveMetadata(config: Config, metric: string, metadata: Option<Metadata>): (md: Metadata)
    ensures metadata.Some? && metadata.value != map[] ==> md == metadata.value
    ensures (metadata.None? || metadata.value == map[]) ==> md == ConfigGet(config, metric)
  {
    if metadata.None? || metadata.value == map[] then ConfigGet(config, metric) else metadata.value
  }

  /** The client call the policy selects. */
  function Fetch(serverMetrics: seq<string>, metric: string, policy: DeltaPolicy, start: string, end: string,
                 now: DateTime, transport: Transport): (r: Result<(QueryData, Table)>)
    requires metric in serverMetrics
    ensures var base := GetWithoutDeltas(metric, Some(start), Some(end), None, now, transport);
      && (r.Ok? <==> base.Ok?)
      && (r.Err? ==> r.error == base.error)
      && (r.Ok? ==> r.value.0 == base.value.0)
      && (r.Ok? && policy == Force ==> r.value.1 == AddDeltas(base.value.1))
      && (r.Ok? && policy == Suppress ==> r.value.1 == base.value.1)
      && (r.Ok? && policy == Auto ==>
            r.value.1 == if IsCumulative(metric) then AddDeltas(base.value.1) else base.value.1)
  {
    match policy
    case Auto => GetMetric(serverMetrics, metric, Some(start), Some(end), None, now, transport)
    case Force => GetWithDeltas(metric, Some(start), Some(end), None, now, transport)
    case Suppress => GetWithoutDeltas(metric, Some(start), Some(end), None, now, transport)
  }

  /** `Prometheus.get_metric`. The guards run in source order and leave the state alone; past
      them the stub entry is stored before the fetch, so a failed fetch leaves the stub. */
  function GetMetricFor(p: Prometheus, metric: string, metadata: Option<Metadata>,
                        starttime: Option<string>, endtime: Option<string>,
                        now: DateTime, transport: Transport): (r: (Prometheus, Result<Entry>))
    ensures r.0.starttime == p.starttime && r.0.endtime == p.endtime
    ensures r.0.config == p.config && r.0.serverMetrics == p.serverMetrics
    ensures var st := Prefer(starttime, p.starttime); var en := Prefer(endtime, p.endtime);
      && (!Truthy(st) || !Truthy(en) ==> r == (p, Err(MissingWindow)))
      && (Truthy(st) && Truthy(en) && metric == "" ==> r == (p, Err(EmptyMetric)))
      && (Truthy(st) && Truthy(en) && metric != "" && metric !in p.serverMetrics ==>
            r == (p, Err(NotOnServer(metric))))
    ensures var st := Prefer(starttime, p.starttime); var en := Prefer(endtime, p.endtime);
      Truthy(st) && Truthy(en) && metric != "" && metric in p.serverMetrics ==>
        var md := EffectiveMetadata(p.config, metric, metadata);
        && r.0.prometheusData.Keys == p.prometheusData.Keys + {metric}
        && (forall k :: k in p.prometheusData && k != metric ==> r.0.prometheusData[k] == p.prometheusData[k])
        && r.0.prometheusData[metric].metadata == md
        && r.0.prometheusData[metric].title == metric
        && (r.1.Ok? ==> r.1.value == r.0.prometheusData[metric] && r.1.value.fetched.Some?)
        && (r.1.Err? ==> r.0.prometheusData[metric] == Entry(md, metric, None))
  {
    var st := Prefer(starttime, p.starttime);
    var en := Prefer(endtime, p.endtime);
    if !Truthy(st) || !Truthy(en) then (p, Err(MissingWindow))
    else if metric == "" then (p, Err(EmptyMetric))
    else if metric !in p.serverMetrics then (p, Err(NotOnServer(metric)))
    else
      Record(p, metric, EffectiveMetadata(p.config, metric, metadata),
             Fetch(p.serverMetrics, metric, PolicyOf(EffectiveMetadata(p.config, metric, metadata)),
                   st.value, en.value, now, transport))
  }

  /** Lines 89-105 of `get_metric`: the stub `{metadata, title}` is stored first; a successful
      fetch then adds `data` and `df` to it and returns it. */
  function Record(p: Prometheus, metric: string, md: Metadata, outcome: Result<(QueryData, Table)>)
    : (r: (Prometheus, Result<Entry>))
    ensures r.0 == p.(prometheusData := r.0.prometheusData)
    ensures r.0.prometheusData.Keys == p.prometheusData.Keys + {metric}
    ensures forall k :: k in p.prometheusData && k != metric ==> r.0.prometheusData[k] == p.prometheusData[k]
    ensures r.0.prometheusData[metric].metadata == md && r.0.prometheusData[metric].title == metric
    ensures r.1.Ok? <==> outcome.Ok?
    ensures r.1.Ok? ==> r.1.value == r.0.prometheusData[metric] && r.1.value.fetched == Some(outcome.value)
    ensures r.1.Err? ==> r.0.prometheusData[metric] == Entry(md, metric, None) && r.1.error == outcome.error
  {
    var stubbed := p.(prometheusData := p.prometheusData[metric := Entry(md, metric, None)]);
    match outcome
    case Err(e) => (stubbed, Err(e))
    case Ok(v) =>
      var entry := Entry(md, metric, Some(v));
      (stubbed.(prometheusData := p.prometheusData[metric := entry]), Ok(entry))
  }

  /** Past the guards, `get_metric` succeeds exactly when the client's base fetch does, with
      the same error or the same reply data, and the frame the deltas policy asks for. */
  lemma GetMetricForOutcome(p: Prometheus, metric: string, metadata: Option<Metadata>,
                            starttime: Option<string>, endtime: Option<string>,
                            now: DateTime, transport: Transport)
    requires Truthy(Prefer(starttime, p.starttime)) && Truthy(Prefer(endtime, p.endtime))
    requires metric != "" && metric in p.serverMetrics
    ensures var r := GetMetricFor(p, metric, metadata, starttime, endtime, now, transport).1;
      var base := GetWithoutDeltas(metric, Prefer(starttime, p.starttime), Prefer(endtime, p.endtime), None, now, transport);
      var policy := PolicyOf(EffectiveMetadata(p.config, metric, metadata));
      && (r.Ok? <==> base.Ok?)
      && (r.Err? ==> r.error == base.error)
      && (r.Ok? ==> r.value.fetched.value.0 == base.value.0)
      && (r.Ok? && policy == Force ==> r.value.fetched.value.1 == AddDeltas(base.value.1))
      && (r.Ok? && policy == Suppress ==> r.value.fetched.value.1 == base.value.1)
      && (r.Ok? && policy == Auto ==>
            r.value.fetched.value.1 == if IsCumulative(metric) then AddDeltas(base.value.1) else base.value.1)
  {
  }

  /** With `deltas: true` and no `delta_` name clash, the frame is the base frame followed by
      one delta column per base column; with `deltas: false` it is the base frame. */
  lemma PolicyShapesFrame(p: Prometheus, metric: string, md: Metadata, now: DateTime, transport: Transport)
    requires Truthy(p.starttime) && Truthy(p.endtime) && metric != "" && metric in p.serverMetrics
    requires md != map[] && "deltas" in md
    requires GetMetricFor(p, metric, Some(md), None, None, now, transport).1.Ok?
    ensures var base := GetWithoutDeltas(metric, p.starttime, p.endtime, None, now, transport).value.1;
      var df := GetMetricFor(p, metric, Some(md), None, None, now, transport).1.value.fetched.value.1;
      && (md["deltas"] == JBool(true) && NoClash(base) ==> df == base + DeltaColumns(base))
      && (md["deltas"] == JBool(false) ==> df == base)
  {
    var base := GetWithoutDeltas(metric, p.starttime, p.endtime, None, now, transport).value.1;
    if md["deltas"] == JBool(true) && NoClash(base) {
      AddDeltasAppends(base);
    }
  }

  /** Without metadata, the entry stores the configuration's object for the metric. */
  lemma MetadataFromConfig(p: Prometheus, metric: string, i: int, now: DateTime, transport: Transport)
    requires Truthy(p.starttime) && Truthy(p.endtime) && metric != "" && metric in p.serverMetrics
    requires 0 <= i < |p.config| && p.config[i].0 == metric
    ensures GetMetricFor(p, metric, None, None, None, now, transport).0.prometheusData[metric].metadata
            == p.config[i].1
  {
    var md := ConfigGet(p.config, metric);
    var j :| 0 <= j < |p.config| && p.config[j].0 == metric && md == p.config[j].1;
    assert i == j;
  }

  /** The per-metric call `get_metrics` makes: store into the state, report the outcome. */
  type Visitor = (Prometheus, string, Metadata) -> (Prometheus, Result<Entry>)

  /** What the walk needs of its per-metric call: every field but `prometheusData` stays, and
      only the visited name's entry may be added or changed, holding data when the call succeeds. */
  ghost predicate StoresOnlyVisited(visit: Visitor) {
    forall q: Prometheus, m: string, md: Metadata ::
      && visit(q, m, md).0 == q.(prometheusData := visit(q, m, md).0.prometheusData)
      && q.prometheusData.Keys <= visit(q, m, md).0.prometheusData.Keys <= q.prometheusData.Keys + {m}
      && (forall k :: k in q.prometheusData && k != m ==>
            visit(q, m, md).0.prometheusData[k] == q.prometheusData[k])
      && (visit(q, m, md).1.Ok? ==>
            m in visit(q, m, md).0.prometheusData && visit(q, m, md).0.prometheusData[m].fetched.Some?)
  }

  /** The outcome of the per-metric call does not depend on what is already stored: two
      states that differ only in `prometheusData` get the same outcome. */
  ghost predicate OutcomeIgnoresStore(visit: Visitor) {
    forall q1: Prometheus, q2: Prometheus, m: string, md: Metadata
      | q1 == q2.(prometheusData := q1.prometheusData) :: visit(q1, m, md).1 == visit(q2, m, md).1
  }

  /** Two states that differ only in what is stored get the same outcome from `get_metric`,
      whatever window the call passes. */
  lemma GetMetricForIgnoresStore(q1: Prometheus, q2: Prometheus, metric: string, metadata: Option<Metadata>,
                                 starttime: Option<string>, endtime: Option<string>,
                                 now: DateTime, transport: Transport)
    requires q1 == q2.(prometheusData := q1.prometheusData)
    ensures GetMetricFor(q1, metric, metadata, starttime, endtime, now, transport).1
         == GetMetricFor(q2, metric, metadata, starttime, endtime, now, transport).1
  {
    var st := Prefer(starttime, q1.starttime);
    var en := Prefer(endtime, q1.endtime);
    assert st == Prefer(starttime, q2.starttime) && en == Prefer(endtime, q2.endtime);
    if Truthy(st) && Truthy(en) && metric != "" && metric in q1.serverMetrics {
      var md := EffectiveMetadata(q1.config, metric, metadata);
      var outcome := Fetch(q1.serverMetrics, metric, PolicyOf(md), st.value, en.value, now, transport);
      assert Record(q1, metric, md, outcome).1 == Record(q2, metric, md, outcome).1;
    }
  }

  /** `get_metric`, with or without a window, keeps every field but `prometheusData`, writes at
      most the metric's own entry, and on success leaves fetched data in it. */
  lemma GetMetricForStores(q: Prometheus, m: string, metadata: Option<Metadata>,
                           starttime: Option<string>, endtime: Option<string>,
                           now: DateTime, transport: Transport)
    ensures var r := GetMetricFor(q, m, metadata, starttime, endtime, now, transport);
      && r.0 == q.(prometheusData := r.0.prometheusData)
      && q.prometheusData.Keys <= r.0.prometheusData.Keys <= q.prometheusData.Keys + {m}
      && (forall k :: k in q.prometheusData && k != m ==> r.0.prometheusData[k] == q.prometheusData[k])
      && (r.1.Ok? ==> m in r.0.prometheusData && r.0.prometheusData[m].fetched.Some?)
  {
  }

  /** `self.get_metric(metric, metadata)` with no explicit window. */
  function GetMetricVisitor(now: DateTime, transport: Transport): Visitor {
    (q: Prometheus, m: string, md: Metadata) => GetMetricFor(q, m, Some(md), None, None, now, transport)
  }

  /** The call `get_metrics` makes per metric stores only that metric's entry. */
  lemma GetMetricVisitorStores(now: DateTime, transport: Transport)
    ensures StoresOnlyVisited(GetMetricVisitor(now, transport))
  {
    var v := GetMetricVisitor(now, transport);
    forall q: Prometheus, m: string, md: Metadata
      ensures && v(q, m, md).0 == q.(prometheusData := v(q, m, md).0.prometheusData)
              && q.prometheusData.Keys <= v(q, m, md).0.prometheusData.Keys <= q.prometheusData.Keys + {m}
              && (forall k :: k in q.prometheusData && k != m ==> v(q, m, md).0.prometheusData[k] == q.prometheusData[k])
              && (v(q, m, md).1.Ok? ==> m in v(q, m, md).0.prometheusData && v(q, m, md).0.prometheusData[m].fetched.Some?)
    {
      assert v(q, m, md) == GetMetricFor(q, m, Some(md), None, None, now, transport);
      GetMetricForStores(q, m, Some(md), None, None, now, transport);
    }
  }

  /** The outcome of the call `get_metrics` makes per metric ignores what is already stored. */
  lemma GetMetricVisitorIgnoresStore(now: DateTime, transport: Transport)
    ensures OutcomeIgnoresStore(GetMetricVisitor(now, transport))
  {
    var v := GetMetricVisitor(now, transport);
    forall q1: Prometheus, q2: Prometheus, m: string, md: Metadata | q1 == q2.(prometheusData := q1.prometheusData)
      ensures v(q1, m, md).1 == v(q2, m, md).1
    {
      assert v(q1, m, md) == GetMetricFor(q1, m, Some(md), None, None, now, transport);
      assert v(q2, m, md) == GetMetricFor(q2, m, Some(md), None, None, now, transport);
      GetMetricForIgnoresStore(q1, q2, m, Some(md), None, None, now, transport);
    }
  }

  /** The `for` loop of `get_metrics` over the configuration entries still to visit. A missing
      `active` key raises; `active == False` skips; an active metric the server does not list
      raises; any failure ends the walk with what was stored so far. */
  function Walk(p: Prometheus, items: Config, visit: Visitor): (r: (Prometheus, Result<()>))
    requires StoresOnlyVisited(visit)
    decreases |items|
    ensures r.0 == p.(prometheusData := r.0.prometheusData)
    ensures p.prometheusData.Keys <= r.0.prometheusData.Keys
  {
    if items == [] then (p, Ok(()))
    else
      var (metric, md) := items[0];
      var rest: Config := Rest(items);
      if "active" !in md then (p, Err(MissingKey("active")))
      else if PyEqFalse(md["active"]) then
        Walk(p, rest, visit)
      else if metric !in p.serverMetrics then (p, Err(UnknownMetric(metric)))
      else
        var (p1, res) := visit(p, metric, md);
        if res.Err? then (p1, Err(res.error)) else Walk(p1, rest, visit)
  }

  /** The entries after the first, still without repeated names, and none named like the first. */
  function Rest(items: Config): (rest: Config)
    requires |items| > 0
    ensures rest == items[1..]
    ensures forall i :: 0 <= i < |rest| ==> rest[i] == items[i + 1] && rest[i].0 != items[0].0
  {
    var rest := items[1..];
    assert forall i :: 0 <= i < |rest| ==> rest[i] == items[i + 1];
    rest
  }

  /** An entry whose name the walk does not visit keeps its value. */
  lemma {:induction false} WalkKeepsUnvisited(p: Prometheus, items: Config, visit: Visitor, k: string)
    requires StoresOnlyVisited(visit)
    requires k in p.prometheusData
    requires forall i :: 0 <= i < |items| ==> items[i].0 != k
    ensures k in Walk(p, items, visit).0.prometheusData
    ensures Walk(p, items, visit).0.prometheusData[k] == p.prometheusData[k]
    decreases |items|
  {
    if items != [] {
      var (metric, md) := items[0];
      var rest := Rest(items);
      if "active" in md && PyEqFalse(md["active"]) {
        WalkKeepsUnvisited(p, rest, visit, k);
      } else if "active" in md && metric in p.serverMetrics {
        var (p1, res) := visit(p, metric, md);
        if res.Ok? {
          WalkKeepsUnvisited(p1, rest, visit, k);
        }
      }
    }
  }

  /** A name the walk does not visit is not added. */
  lemma {:induction false} WalkAddsOnlyVisited(p: Prometheus, items: Config, visit: Visitor, k: string)
    requires StoresOnlyVisited(visit)
    requires k !in p.prometheusData
    requires forall i :: 0 <= i < |items| ==> items[i].0 != k
    ensures k !in Walk(p, items, visit).0.prometheusData
    decreases |items|
  {
    if items != [] {
      var (metric, md) := items[0];
      var rest := Rest(items);
      if "active" in md && PyEqFalse(md["active"]) {
        WalkAddsOnlyVisited(p, rest, visit, k);
      } else if "active" in md && metric in p.serverMetrics {
        var (p1, res) := visit(p, metric, md);
        if res.Ok? {
          WalkAddsOnlyVisited(p1, rest, visit, k);
        }
      }
    }
  }

  /** A metric whose `active` equals False is never fetched, so it gets no new entry. */
  lemma {:induction false} WalkSkipsInactive(p: Prometheus, items: Config, visit: Visitor, i: int)
    requires StoresOnlyVisited(visit)
    requires 0 <= i < |items| && "active" in items[i].1 && PyEqFalse(items[i].1["active"])
    requires items[i].0 !in p.prometheusData
    ensures items[i].0 !in Walk(p, items, visit).0.prometheusData
    decreases |items|
  {
    var (metric, md) := items[0];
    var rest := Rest(items);
    if i == 0 {
      WalkAddsOnlyVisited(p, rest, visit, metric);
    } else if "active" in md && PyEqFalse(md["active"]) {
      WalkSkipsInactive(p, rest, visit, i - 1);
    } else if "active" in md && metric in p.serverMetrics {
      var (p1, res) := visit(p, metric, md);
      assert items[i].0 != metric;
      if res.Ok? {
        WalkSkipsInactive(p1, rest, visit, i - 1);
      }
    }
  }

  /** A walk that succeeds found `active` in every entry and met only active metrics the
      server lists. */
  lemma {:induction false} WalkMeetsKnownMetrics(p: Prometheus, items: Config, visit: Visitor, i: int)
    requires StoresOnlyVisited(visit)
    requires 0 <= i < |items| && Walk(p, items, visit).1.Ok?
    ensures "active" in items[i].1
    ensures !PyEqFalse(items[i].1["active"]) ==> items[i].0 in p.serverMetrics
    decreases |items|
  {
    var (metric, md) := items[0];
    var rest := Rest(items);
    if i > 0 {
      if PyEqFalse(md["active"]) {
        WalkMeetsKnownMetrics(p, rest, visit, i - 1);
      } else {
        assert metric in p.serverMetrics && visit(p, metric, md).1.Ok?;
        WalkStep(p, items, visit);
        WalkMeetsKnownMetrics(visit(p, metric, md).0, rest, visit, i - 1);
      }
    }
  }

  /** A walk that succeeds found `active` in its first entry; a skipped entry hands on the same
      state, and an active one was listed, its call succeeded, and the walk went on from there. */
  lemma WalkOkFirst(p: Prometheus, items: Config, visit: Visitor)
    requires StoresOnlyVisited(visit)
    requires |items| > 0 && Walk(p, items, visit).1.Ok?
    ensures "active" in items[0].1
    ensures PyEqFalse(items[0].1["active"]) ==> Walk(p, items, visit) == Walk(p, Rest(items), visit)
    ensures !PyEqFalse(items[0].1["active"]) ==>
      && items[0].0 in p.serverMetrics
      && visit(p, items[0].0, items[0].1).1.Ok?
      && Walk(p, items, visit) == Walk(visit(p, items[0].0, items[0].1).0, Rest(items), visit)
  {
  }

  /** A walk that succeeds found `active` in every entry and fetched every active metric. */
  lemma {:induction false} WalkFetchesActive(p: Prometheus, items: Config, visit: Visitor, i: int)
    requires StoresOnlyVisited(visit)
    requires 0 <= i < |items| && Walk(p, items, visit).1.Ok?
    ensures "active" in items[i].1
    ensures !PyEqFalse(items[i].1["active"]) ==>
      && items[i].0 in Walk(p, items, visit).0.prometheusData
      && Walk(p, items, visit).0.prometheusData[items[i].0].fetched.Some?
    decreases |items|
  {
    var (metric, md) := items[0];
    var rest := Rest(items);
    WalkOkFirst(p, items, visit);
    var p1 := if PyEqFalse(md["active"]) then p else visit(p, metric, md).0;
    assert Walk(p, items, visit) == Walk(p1, rest, visit);
    if i == 0 {
      if !PyEqFalse(md["active"]) {
        WalkKeepsUnvisited(p1, rest, visit, metric);
      }
    } else {
      assert items[i] == rest[i - 1];
      WalkFetchesActive(p1, rest, visit, i - 1);
    }
  }

  /** Entries `0..j` meet the conditions under which the walk reaches entry `j` and stops there:
      every earlier entry has `active`, every earlier active metric is listed and its call
      succeeds, and entry `j` is active but unknown to the server. */
  ghost predicate AbortsAt(p: Prometheus, items: Config, visit: Visitor, j: int) {
    && 0 <= j < |items|
    && (forall i :: 0 <= i < j ==> "active" in items[i].1)
    && (forall i :: 0 <= i < j && !PyEqFalse(items[i].1["active"]) ==>
          items[i].0 in p.serverMetrics && visit(p, items[i].0, items[i].1).1.Ok?)
    && "active" in items[j].1 && !PyEqFalse(items[j].1["active"]) && items[j].0 !in p.serverMetrics
  }

  /** The conditions carry over to the rest of the entries after the first. */
  lemma AbortsAtRest(p: Prometheus, p1: Prometheus, items: Config, visit: Visitor, j: int)
    requires OutcomeIgnoresStore(visit)
    requires AbortsAt(p, items, visit, j) && j > 0
    requires p1 == p.(prometheusData := p1.prometheusData)
    ensures AbortsAt(p1, Rest(items), visit, j - 1)
  {
    var rest := Rest(items);
    forall i | 0 <= i < j - 1 && !PyEqFalse(rest[i].1["active"])
      ensures rest[i].0 in p1.serverMetrics && visit(p1, rest[i].0, rest[i].1).1.Ok?
    {
      assert rest[i] == items[i + 1];
      assert visit(p1, rest[i].0, rest[i].1).1 == visit(p, rest[i].0, rest[i].1).1;
    }
  }

  /** The walk ends with `UnknownMetric` for entry `j`. */
  lemma {:induction false} WalkAbortsAtUnknown(p: Prometheus, items: Config, visit: Visitor, j: int)
    requires StoresOnlyVisited(visit) && OutcomeIgnoresStore(visit)
    requires AbortsAt(p, items, visit, j)
    ensures Walk(p, items, visit).1 == Err(UnknownMetric(items[j].0))
    decreases |items|
  {
    if j > 0 {
      var p1 := WalkPastFirst(p, items, visit, j);
      var rest := Rest(items);
      assert items[j] == rest[j - 1];
      WalkAbortsAtUnknown(p1, rest, visit, j - 1);
    }
  }

  /** A successful visit of the first entry hands the rest of the walk the new state. */
  lemma WalkStep(p: Prometheus, items: Config, visit: Visitor)
    requires StoresOnlyVisited(visit)
    requires |items| > 0 && "active" in items[0].1 && !PyEqFalse(items[0].1["active"])
    requires items[0].0 in p.serverMetrics && visit(p, items[0].0, items[0].1).1.Ok?
    ensures Walk(p, items, visit) == Walk(visit(p, items[0].0, items[0].1).0, Rest(items), visit)
  {
  }

  /** An entry whose `active` equals False hands the rest of the walk the same state. */
  lemma WalkSkip(p: Prometheus, items: Config, visit: Visitor)
    requires StoresOnlyVisited(visit)
    requires |items| > 0 && "active" in items[0].1 && PyEqFalse(items[0].1["active"])
    ensures Walk(p, items, visit) == Walk(p, Rest(items), visit)
  {
  }

  /** A first entry that is visited successfully keeps its fetched data to the end of the walk. */
  lemma WalkKeepsFetchedFirst(p: Prometheus, items: Config, visit: Visitor)
    requires StoresOnlyVisited(visit)
    requires |items| > 0 && "active" in items[0].1 && !PyEqFalse(items[0].1["active"])
    requires items[0].0 in p.serverMetrics && visit(p, items[0].0, items[0].1).1.Ok?
    ensures items[0].0 in Walk(p, items, visit).0.prometheusData
    ensures Walk(p, items, visit).0.prometheusData[items[0].0].fetched.Some?
  {
    WalkStep(p, items, visit);
    WalkKeepsUnvisited(visit(p, items[0].0, items[0].1).0, Rest(items), visit, items[0].0);
  }

  /** Entries `0..i` all have `active`, and each active one among them is listed by the server
      and gets a successful call from state `p0` (or any state differing only in what is stored). */
  ghost predicate FetchesThrough(p0: Prometheus, items: Config, visit: Visitor, i: int) {
    && 0 <= i < |items|
    && forall k :: 0 <= k <= i ==>
         && "active" in items[k].1
         && (!PyEqFalse(items[k].1["active"]) ==>
               items[k].0 in p0.serverMetrics && visit(p0, items[k].0, items[k].1).1.Ok?)
  }

  /** The conditions carry over to the entries after the first. */
  lemma FetchesThroughRest(p0: Prometheus, items: Config, visit: Visitor, i: int)
    requires FetchesThrough(p0, items, visit, i) && i > 0
    ensures FetchesThrough(p0, Rest(items), visit, i - 1)
  {
    var rest := Rest(items);
    forall k | 0 <= k <= i - 1
      ensures "active" in rest[k].1
      ensures !PyEqFalse(rest[k].1["active"]) ==>
        rest[k].0 in p0.serverMetrics && visit(p0, rest[k].0, rest[k].1).1.Ok?
    {
      assert rest[k] == items[k + 1];
    }
  }

  /** An active entry `i` reached with only successful calls before it is fetched and kept
      to the end of the walk, from any state that differs from `p0` only in what is stored. */
  lemma {:induction false} WalkKeepsFetchedAt(p0: Prometheus, p: Prometheus, items: Config, visit: Visitor, i: int)
    requires StoresOnlyVisited(visit) && OutcomeIgnoresStore(visit)
    requires p == p0.(prometheusData := p.prometheusData)
    requires FetchesThrough(p0, items, visit, i) && !PyEqFalse(items[i].1["active"])
    ensures items[i].0 in Walk(p, items, visit).0.prometheusData
    ensures Walk(p, items, visit).0.prometheusData[items[i].0].fetched.Some?
    decreases |items|
  {
    var (metric, md) := items[0];
    assert "active" in md;
    if !PyEqFalse(md["active"]) {
      assert visit(p, metric, md).1 == visit(p0, metric, md).1;
    }
    if i == 0 {
      WalkKeepsFetchedFirst(p, items, visit);
    } else {
      var p1 := p;
      if PyEqFalse(md["active"]) {
        WalkSkip(p, items, visit);
      } else {
        p1 := visit(p, metric, md).0;
        WalkStep(p, items, visit);
      }
      FetchesThroughRest(p0, items, visit, i);
      var rest := Rest(items);
      assert items[i] == rest[i - 1];
      WalkKeepsFetchedAt(p0, p1, rest, visit, i - 1);
    }
  }

  /** On the way to entry `j` the walk fetches each active entry `i` before it, and keeps it. */
  lemma WalkKeepsFetchedBefore(p: Prometheus, items: Config, visit: Visitor, j: int, i: int)
    requires StoresOnlyVisited(visit) && OutcomeIgnoresStore(visit)
    requires AbortsAt(p, items, visit, j)
    requires 0 <= i < j && !PyEqFalse(items[i].1["active"])
    ensures items[i].0 in Walk(p, items, visit).0.prometheusData
    ensures Walk(p, items, visit).0.prometheusData[items[i].0].fetched.Some?
  {
    assert FetchesThrough(p, items, visit, i);
    WalkKeepsFetchedAt(p, p, items, visit, i);
  }

  /** The state the walk hands on past the first entry on its way to entry `j`. */
  lemma WalkPastFirst(p: Prometheus, items: Config, visit: Visitor, j: int) returns (p1: Prometheus)
    requires StoresOnlyVisited(visit) && OutcomeIgnoresStore(visit)
    requires AbortsAt(p, items, visit, j) && j > 0
    ensures p1 == p.(prometheusData := p1.prometheusData)
    ensures p1.prometheusData.Keys <= p.prometheusData.Keys + {items[0].0}
    ensures Walk(p, items, visit) == Walk(p1, Rest(items), visit)
    ensures AbortsAt(p1, Rest(items), visit, j - 1)
  {
    if PyEqFalse(items[0].1["active"]) {
      p1 := p;
      WalkSkip(p, items, visit);
    } else {
      p1 := visit(p, items[0].0, items[0].1).0;
      WalkStep(p, items, visit);
    }
    AbortsAtRest(p, p1, items, visit, j);
  }

  /** The unknown entry `j` itself gains no entry: the walk raises before any call for it. */
  lemma {:induction false} WalkAbortAddsNoEntry(p: Prometheus, items: Config, visit: Visitor, j: int)
    requires StoresOnlyVisited(visit) && OutcomeIgnoresStore(visit)
    requires AbortsAt(p, items, visit, j) && items[j].0 !in p.prometheusData
    ensures items[j].0 !in Walk(p, items, visit).0.prometheusData
    decreases |items|
  {
    if j > 0 {
      var p1 := WalkPastFirst(p, items, visit, j);
      var rest := Rest(items);
      assert items[j] == rest[j - 1] && items[j].0 != items[0].0;
      WalkAbortAddsNoEntry(p1, rest, visit, j - 1);
    }
  }

  /** `Prometheus.get_metrics`: walk the whole configuration in order. */
  function GetMetrics(p: Prometheus, now: DateTime, transport: Transport): (r: (Prometheus, Result<()>))
    ensures r.0.config == p.config && r.0.serverMetrics == p.serverMetrics
    ensures p.prometheusData.Keys <= r.0.prometheusData.Keys
  {
    GetMetricVisitorStores(now, transport);
    Walk(p, p.config, GetMetricVisitor(now, transport))
  }

  /** After a successful `get_metrics`, every configured metric not marked inactive has fetched
      data, and no inactive metric has gained an entry. */
  lemma GetMetricsCoversConfig(p: Prometheus, now: DateTime, transport: Transport, i: int)
    requires 0 <= i < |p.config|
    ensures GetMetrics(p, now, transport).1.Ok? ==> "active" in p.config[i].1
    ensures GetMetrics(p, now, transport).1.Ok? && !PyEqFalse(p.config[i].1["active"]) ==>
      p.config[i].0 in p.serverMetrics
    ensures GetMetrics(p, now, transport).1.Ok? && !PyEqFalse(p.config[i].1["active"]) ==>
      && p.config[i].0 in GetMetrics(p, now, transport).0.prometheusData
      && GetMetrics(p, now, transport).0.prometheusData[p.config[i].0].fetched.Some?
    ensures "active" in p.config[i].1 && PyEqFalse(p.config[i].1["active"]) && p.config[i].0 !in p.prometheusData ==>
      p.config[i].0 !in GetMetrics(p, now, transport).0.prometheusData
  {
    var visit := GetMetricVisitor(now, transport);
    GetMetricVisitorStores(now, transport);
    if GetMetrics(p, now, transport).1.Ok? {
      WalkFetchesActive(p, p.config, visit, i);
      WalkMeetsKnownMetrics(p, p.config, visit, i);
    }
    if "active" in p.config[i].1 && PyEqFalse(p.config[i].1["active"]) && p.config[i].0 !in p.prometheusData {
      WalkSkipsInactive(p, p.config, visit, i);
    }
  }

  /** The first entry decides alone when it is active and unknown to the server: the walk
      raises before anything is stored. */
  lemma UnknownFirstMetricAborts(p: Prometheus, now: DateTime, transport: Transport)
    requires |p.config| > 0 && "active" in p.config[0].1 && !PyEqFalse(p.config[0].1["active"])
    requires p.config[0].0 !in p.serverMetrics
    ensures GetMetrics(p, now, transport) == (p, Err(UnknownMetric(p.config[0].0)))
  {
  }

  /** No rollback: when every active metric before entry `j` is listed and fetches, and
      entry `j` is active but unknown to the server, `get_metrics` raises for entry `j`, keeps
      the data of every metric it fetched before, and stores nothing for entry `j`. */
  lemma FailureKeepsEarlierEntries(p: Prometheus, now: DateTime, transport: Transport, j: int)
    requires 0 <= j < |p.config|
    requires forall i :: 0 <= i < j ==> "active" in p.config[i].1
    requires forall i :: 0 <= i < j && !PyEqFalse(p.config[i].1["active"]) ==>
      && p.config[i].0 in p.serverMetrics
      && GetMetricFor(p, p.config[i].0, Some(p.config[i].1), None, None, now, transport).1.Ok?
    requires "active" in p.config[j].1 && !PyEqFalse(p.config[j].1["active"])
    requires p.config[j].0 !in p.serverMetrics
    ensures GetMetrics(p, now, transport).1 == Err(UnknownMetric(p.config[j].0))
    ensures forall i :: 0 <= i < j && !PyEqFalse(p.config[i].1["active"]) ==>
      && p.config[i].0 in GetMetrics(p, now, transport).0.prometheusData
      && GetMetrics(p, now, transport).0.prometheusData[p.config[i].0].fetched.Some?
    ensures p.config[j].0 !in p.prometheusData ==> p.config[j].0 !in GetMetrics(p, now, transport).0.prometheusData
  {
    var visit := GetMetricVisitor(now, transport);
    GetMetricVisitorStores(now, transport);
    GetMetricVisitorIgnoresStore(now, transport);
    WalkAbortsAtUnknown(p, p.config, visit, j);
    if p.config[j].0 !in p.prometheusData {
      WalkAbortAddsNoEntry(p, p.config, visit, j);
    }
    forall i | 0 <= i < j && !PyEqFalse(p.config[i].1["active"])
      ensures p.config[i].0 in GetMetrics(p, now, transport).0.prometheusData
      ensures GetMetrics(p, now, transport).0.prometheusData[p.config[i].0].fetched.Some?
    {
      WalkKeepsFetchedBefore(p, p.config, visit, j, i);
    }
  }
}

=== FILE: query.dfy ===
/** Wire formatting of `PrometheusQueryClient.query_range`: the `start`/`end`
    conversion of `_datetime_to_str`, the request parameters, and the
    success/error envelope of the server's reply. */
module Query {
  import opened Base
  import opened Text
  import opened Timestamps
  import opened Tables

  /** A `start`/`end` argument: a `datetime`, or any other value (carried as its text). */
  datatype TimeArg = At(dt: DateTime) | Other(text: string)

  /** `_datetime_to_str`: a datetime becomes its 20-character wire form, anything else is
      returned unchanged. */
  function DatetimeToStr(t: TimeArg): (s: string)
    ensures t.At? ==> |s| == 20 && Parse(s) == Ok(t.dt)
    ensures t.Other? ==> s == t.text
  {
    match t
    case At(dt) => FormatThenParse(dt); Format(dt)
    case Other(text) => text
  }

  /** A timeout is sent only when it is truthy (present and non-zero). */
  predicate TimeoutTruthy(timeout: Option<int>) {
    timeout.Some? && timeout.value != 0
  }

  /** The five parameter names are pairwise different strings. */
  lemma KeysDistinct()
    ensures "query" != "start" && "query" != "end" && "query" != "step" && "query" != "timeout"
    ensures "start" != "end" && "start" != "step" && "start" != "timeout"
    ensures "end" != "step" && "end" != "timeout" && "step" != "timeout"
  {
    assert "query"[0] != "start"[0];
    assert |"end"| == 3 && |"step"| == 4 && |"timeout"| == 7 && |"start"| == 5;
  }

  /** The parameter dict `query_range` builds. The guard `not params.get('timeout', False)`
      is always true of the fresh dict, so only the truthiness of `timeout` matters. */
  function QueryParams(query: string, start: TimeArg, end: TimeArg, step: string, timeout: Option<int>)
    : (p: map<string, string>)
    ensures "query" in p && "start" in p && "end" in p && "step" in p
    ensures "timeout" in p <==> TimeoutTruthy(timeout)
    ensures p.Keys == {"query", "start", "end", "step"} + (if TimeoutTruthy(timeout) then {"timeout"} else {})
    ensures p["query"] == query && p["step"] == step
    ensures p["start"] == DatetimeToStr(start) && p["end"] == DatetimeToStr(end)
    ensures "timeout" in p ==> ParseInt(p["timeout"]) == Some(timeout.value)
  {
    KeysDistinct();
    var params := map["query" := query, "start" := DatetimeToStr(start), "end" := DatetimeToStr(end), "step" := step];
    if TimeoutTruthy(timeout) && "timeout" !in params then
      IntTextRoundTrip(timeout.value);
      params["timeout" := IntText(timeout.value)]
    else
      params
  }

  /** What the transport hands back: a decoded JSON envelope, or a failure to get one. */
  datatype Reply =
    | Reply(status: string, data: QueryData, errorType: string, error: string)
    | Unreachable(reason: string)

  /** The HTTP GET of `path` with `params`, supplied from outside the model. */
  type Transport = (string, map<string, string>) -> Reply

  const QueryRangePath: string := "api/v1/query_range"

  /** The envelope check of `__do_query_direct`: only `status == 'success'` yields `data`. */
  function Unwrap(reply: Reply): (r: Result<QueryData>)
    ensures r.Ok? <==> reply.Reply? && reply.status == "success"
    ensures r.Ok? ==> r.value == reply.data
    ensures reply.Reply? && reply.status != "success" ==> r == Err(ServerError(reply.errorType, reply.error))
    ensures reply.Unreachable? ==> r == Err(TransportError(reply.reason))
  {
    match reply
    case Unreachable(reason) => Err(TransportError(reason))
    case Reply(status, data, errorType, error) =>
      if status != "success" then Err(ServerError(errorType, error)) else Ok(data)
  }

  /** The intended `_do_query`: send `path` and `params` and pass the reply through the
      envelope check, so the server's data, or its error, reaches the caller. */
  function DoQuery(path: string, params: map<string, string>, transport: Transport): (r: Result<QueryData>)
    ensures var reply := transport(path, params);
      && (r.Ok? <==> reply.Reply? && reply.status == "success")
      && (r.Ok? ==> r.value == reply.data)
      && (r.Err? ==> r.error.ServerError? || r.error.TransportError?)
  {
    Unwrap(transport(path, params))
  }

  /** Python's private-name mangling inside `class PrometheusQueryClient`: an identifier with
      two leading underscores and not two trailing ones gains the class name as a prefix. */
  function Mangle(name: string): string {
    if |name| >= 2 && name[..2] == "__" && !(|name| >= 4 && name[|name| - 2..] == "__")
    then "_PrometheusQueryClient" + name
    else name
  }

  /** The instance attributes `__init__` leaves: `setattr` stores the literal `'__query_function'`. */
  const InitAttributes: set<string> := {"url", "ssl_verify", "metrics", "__query_function"}

  /** `_do_query` as written, on an instance holding `attrs`. `self.__query_function` is looked
      up under its mangled name. Were it found, it would be the function `setattr` stored, which
      is not bound, so `(path, params)` would leave its third parameter unfilled (and the bound
      `self.__do_query_direct` inside it is handed `self` a second time): a `TypeError`. */
  function DoQueryAsWritten(attrs: set<string>, path: string, params: map<string, string>,
                            transport: Transport): (r: Result<QueryData>)
    ensures r.Err?
    ensures Mangle("__query_function") !in attrs ==> r == Err(MissingAttribute(Mangle("__query_function")))
    ensures Mangle("__query_function") in attrs ==> r == Err(ArgumentMismatch("query_function"))
  {
    var name := Mangle("__query_function");
    if name !in attrs then Err(MissingAttribute(name))
    else Err(ArgumentMismatch("query_function"))
  }

  /** The mangled name is not the one `setattr` stored, so as written every query raises
      `AttributeError`, even when the server would answer with data. */
  lemma DispatchAsWrittenLosesReply(path: string, params: map<string, string>, transport: Transport)
    requires transport(path, params).Reply? && transport(path, params).status == "success"
    ensures Mangle("__query_function") == "_PrometheusQueryClient__query_function"
    ensures Mangle("__query_function") !in InitAttributes
    ensures DoQuery(path, params, transport) == Ok(transport(path, params).data)
    ensures DoQueryAsWritten(InitAttributes, path, params, transport)
         == Err(MissingAttribute("_PrometheusQueryClient__query_function"))
  {
    var n: string := "__query_function";
    assert n[..2] == "__" && n[|n| - 2..] != "__";
  }

  /** `query_range`: one request to the range-query endpoint. */
  function QueryRange(query: string, start: TimeArg, end: TimeArg, step: string, timeout: Option<int>,
                      transport: Transport): (r: Result<QueryData>)
    ensures var reply := transport(QueryRangePath, QueryParams(query, start, end, step, timeout));
      (r.Ok? <==> reply.Reply? && reply.status == "success") && (r.Ok? ==> r.value == reply.data)
  {
    DoQuery(QueryRangePath, QueryParams(query, start, end, step, timeout), transport)
  }
}

=== FILE: tables.dfy ===
/** The raw range-query result and its conversion into named columns,
    as `get_without_deltas` builds them: one column per series, named
    `"<__name__> - <instance>"`, holding the series' sample values in order. */
module Tables {
  import opened Base

  /** One `[timestamp, value]` pair of a series. */
  datatype Sample = Sample(time: int, value: real)

  /** One entry of `results['result']`: its `metric` labels and its `values`. */
  datatype Series = Series(labels: map<string, string>, samples: seq<Sample>)

  /** The `data` member of a successful range-query reply. */
  datatype QueryData = QueryData(resultType: string, result: seq<Series>)

  /** A named column of the data frame. */
  datatype Column = Column(name: string, values: seq<real>)

  predicate DistinctNames(cols: seq<Column>) {
    forall i, j :: 0 <= i < j < |cols| ==> cols[i].name != cols[j].name
  }

  /** A data frame: columns in order, no two with the same name. */
  type Table = cols: seq<Column> | DistinctNames(cols) witness []

  function NameSet(t: seq<Column>): set<string> {
    set c | c in t :: c.name
  }

  /** Position of the column called `name`. */
  function IndexOf(t: Table, name: string): (k: int)
    requires name in NameSet(t)
    ensures 0 <= k < |t| && t[k].name == name
  {
    if t[0].name == name then 0
    else
      var rest: Table := t[1..];
      assert name in NameSet(rest) by {
        var c :| c in t && c.name == name;
        assert c != t[0];
      }
      1 + IndexOf(rest, name)
  }

  /** `df[name].to_list()`. */
  function Lookup(t: Table, name: string): seq<real>
    requires name in NameSet(t)
  {
    t[IndexOf(t, name)].values
  }

  /** Names are unique, so the column at any position is the one a lookup finds. */
  lemma LookupAt(t: Table, k: int)
    requires 0 <= k < |t|
    ensures t[k].name in NameSet(t)
    ensures IndexOf(t, t[k].name) == k
    ensures Lookup(t, t[k].name) == t[k].values
  {
    assert t[k] in t;
  }

  /** Replacing a column by one of the same name keeps the names. */
  lemma ReplaceKeepsNames(t: Table, k: int, c: Column)
    requires 0 <= k < |t| && c.name == t[k].name
    ensures DistinctNames(t[k := c])
    ensures NameSet(t[k := c]) == NameSet(t)
  {
    var r := t[k := c];
    forall n ensures n in NameSet(r) <==> n in NameSet(t) {
      if n in NameSet(t) {
        var d :| d in t && d.name == n;
        var i :| 0 <= i < |t| && t[i] == d;
        assert r[i].name == n;
      }
      if n in NameSet(r) {
        var d :| d in r && d.name == n;
        var i :| 0 <= i < |r| && r[i] == d;
        assert t[i].name == n;
      }
    }
  }

  /** Appending a column with a new name adds exactly that name. */
  lemma AppendAddsName(t: Table, c: Column)
    requires c.name !in NameSet(t)
    ensures DistinctNames(t + [c])
    ensures NameSet(t + [c]) == NameSet(t) + {c.name}
  {
    var r := t + [c];
    forall i | 0 <= i < |t| ensures t[i].name != c.name {
      assert t[i] in t;
    }
    forall n ensures n in NameSet(r) <==> n in NameSet(t) + {c.name} {
      if n in NameSet(r) {
        var d :| d in r && d.name == n;
        var i :| 0 <= i < |r| && r[i] == d;
        if i < |t| {
          assert t[i] in t;
        }
      }
      if n in NameSet(t) {
        var d :| d in t && d.name == n;
        var i :| 0 <= i < |t| && t[i] == d;
        assert r[i] in r;
      }
    }
  }

  /** `df[name] = values` (and a dict store): overwrite the column in place when the name
      exists, append it otherwise. */
  function Put(t: Table, name: string, values: seq<real>): (r: Table)
    ensures name in NameSet(t) ==>
      && |r| == |t|
      && r[IndexOf(t, name)] == Column(name, values)
      && forall i :: 0 <= i < |t| && i != IndexOf(t, name) ==> r[i] == t[i]
    ensures name !in NameSet(t) ==> r == t + [Column(name, values)]
    ensures NameSet(r) == NameSet(t) + {name}
    ensures name in NameSet(r) && Lookup(r, name) == values
    ensures forall n :: n in NameSet(t) && n != name ==> n in NameSet(r) && Lookup(r, n) == Lookup(t, n)
  {
    if name in NameSet(t) then
      var k := IndexOf(t, name);
      ReplaceKeepsNames(t, k, Column(name, values));
      var r: Table := t[k := Column(name, values)];
      PutKeepsOthers(t, r, k);
      LookupAt(r, k);
      r
    else
      AppendAddsName(t, Column(name, values));
      var r: Table := t + [Column(name, values)];
      PutKeepsOthers(t, r, |t|);
      LookupAt(r, |t|);
      r
  }

  /** Lookups of names other than the one written are unchanged by a write at position `k`. */
  lemma PutKeepsOthers(t: Table, r: Table, k: int)
    requires 0 <= k <= |t| && |r| >= |t| && (k < |t| ==> |r| == |t|)
    requires forall i :: 0 <= i < |t| && i != k ==> r[i] == t[i]
    ensures forall n :: n in NameSet(t) && n != (if k < |t| then t[k].name else "") && (k == |t| || n != r[k].name) ==>
      n in NameSet(r) && Lookup(r, n) == Lookup(t, n)
  {
    forall n | n in NameSet(t) && n != (if k < |t| then t[k].name else "") && (k == |t| || n != r[k].name)
      ensures n in NameSet(r) && Lookup(r, n) == Lookup(t, n)
    {
      var i := IndexOf(t, n);
      if i == k {
        assert false;
      }
      assert r[i] == t[i];
      LookupAt(r, i);
    }
  }

  /** `'{} - {}'.format(r['metric']['__name__'], r['metric']['instance'])`, raising KeyError
      on the first missing label. */
  function ColumnName(s: Series): (r: Result<string>)
    ensures r.Ok? <==> "__name__" in s.labels && "instance" in s.labels
    ensures "__name__" !in s.labels ==> r == Err(MissingKey("__name__"))
    ensures "__name__" in s.labels && "instance" !in s.labels ==> r == Err(MissingKey("instance"))
    ensures r.Ok? ==> var name := s.labels["__name__"];
      && |r.value| == |name| + 3 + |s.labels["instance"]|
      && r.value[..|name|] == name
      && r.value[|name|..|name| + 3] == " - "
      && r.value[|name| + 3..] == s.labels["instance"]
  {
    if "__name__" !in s.labels then Err(MissingKey("__name__"))
    else if "instance" !in s.labels then Err(MissingKey("instance"))
    else Ok(s.labels["__name__"] + " - " + s.labels["instance"])
  }

  /** The series' sample values, in sample order. */
  function Values(s: Series): (v: seq<real>)
    ensures |v| == |s.samples|
    ensures forall i :: 0 <= i < |v| ==> v[i] == s.samples[i].value
  {
    seq(|s.samples|, i requires 0 <= i < |s.samples| => s.samples[i].value)
  }

  /** Every series carries both labels the column name needs. */
  predicate AllNamed(data: seq<Series>) {
    forall i :: 0 <= i < |data| ==> ColumnName(data[i]).Ok?
  }

  /** No later series has the same column name as series `i`. */
  predicate LastOfName(data: seq<Series>, i: int)
    requires 0 <= i < |data| && AllNamed(data)
  {
    forall j :: i < j < |data| ==> ColumnName(data[j]) != ColumnName(data[i])
  }

  /** The column names of all the series. */
  function SeriesNames(data: seq<Series>): set<string>
    requires AllNamed(data)
  {
    set i | 0 <= i < |data| :: ColumnName(data[i]).value
  }

  /** All named series have their names collected in `t`, each holding its last values. */
  predicate Collected(data: seq<Series>, t: Table)
    requires AllNamed(data)
  {
    && NameSet(t) == SeriesNames(data)
    && forall i :: 0 <= i < |data| && LastOfName(data, i) ==>
         ColumnName(data[i]).value in NameSet(t) && Lookup(t, ColumnName(data[i]).value) == Values(data[i])
  }

  lemma AllNamedSplit(data: seq<Series>)
    requires |data| > 0
    ensures AllNamed(data) <==> AllNamed(data[..|data| - 1]) && ColumnName(data[|data| - 1]).Ok?
  {
    var init := data[..|data| - 1];
    if AllNamed(init) && ColumnName(data[|data| - 1]).Ok? {
      forall i | 0 <= i < |data| ensures ColumnName(data[i]).Ok? {
        if i < |init| { assert data[i] == init[i]; }
      }
    }
  }

  /** The names of a run of series are those of all but the last, plus the last one's. */
  lemma NamesSnoc(data: seq<Series>)
    requires |data| > 0 && AllNamed(data)
    ensures AllNamed(data[..|data| - 1])
    ensures SeriesNames(data) == SeriesNames(data[..|data| - 1]) + {ColumnName(data[|data| - 1]).value}
  {
    var init := data[..|data| - 1];
    var last := ColumnName(data[|data| - 1]).value;
    var names := SeriesNames(data);
    var earlier := SeriesNames(init);
    forall n | n in names ensures n in earlier + {last} {
      var i :| 0 <= i < |data| && n == ColumnName(data[i]).value;
      if i < |init| {
        assert init[i] == data[i];
        assert n in earlier;
      }
    }
    forall n | n in earlier ensures n in names {
      var i :| 0 <= i < |init| && n == ColumnName(init[i]).value;
      assert init[i] == data[i];
    }
  }

  /** Storing the last series' column adds its name to those collected so far. */
  lemma CollectNames(data: seq<Series>, t: Table)
    requires |data| > 0 && AllNamed(data)
    requires AllNamed(data[..|data| - 1]) && Collected(data[..|data| - 1], t)
    ensures NameSet(Put(t, ColumnName(data[|data| - 1]).value, Values(data[|data| - 1])))
      == SeriesNames(data)
  {
    NamesSnoc(data);
  }

  /** An earlier series that is the last of its name keeps its column through the store. */
  lemma CollectEarlier(data: seq<Series>, t: Table, i: int)
    requires |data| > 0 && AllNamed(data)
    requires AllNamed(data[..|data| - 1]) && Collected(data[..|data| - 1], t)
    requires 0 <= i < |data| - 1 && LastOfName(data, i)
    ensures var r := Put(t, ColumnName(data[|data| - 1]).value, Values(data[|data| - 1]));
      ColumnName(data[i]).value in NameSet(r) && Lookup(r, ColumnName(data[i]).value) == Values(data[i])
  {
    var init := data[..|data| - 1];
    assert init[i] == data[i];
    assert ColumnName(data[i]) != ColumnName(data[|data| - 1]);
    assert LastOfName(init, i) by {
      forall j | i < j < |init| ensures ColumnName(init[j]) != ColumnName(init[i]) {
        assert init[j] == data[j];
      }
    }
  }

  /** Storing the last series' column extends what the earlier series collected. */
  lemma CollectStep(data: seq<Series>, t: Table)
    requires |data| > 0 && AllNamed(data)
    requires AllNamed(data[..|data| - 1]) && Collected(data[..|data| - 1], t)
    ensures Collected(data, Put(t, ColumnName(data[|data| - 1]).value, Values(data[|data| - 1])))
  {
    CollectNames(data, t);
    forall i | 0 <= i < |data| - 1 && LastOfName(data, i)
      ensures var r := Put(t, ColumnName(data[|data| - 1]).value, Values(data[|data| - 1]));
        ColumnName(data[i]).value in NameSet(r) && Lookup(r, ColumnName(data[i]).value) == Values(data[i])
    {
      CollectEarlier(data, t, i);
    }
  }

  /** The dict comprehension over `results['result']`: series are visited in order, so the
      first series lacking a label decides the error (`ToColumnsFirstError`), and a later
      series with an existing name replaces that column's values (keeping its position). */
  function ToColumns(data: seq<Series>): (r: Result<Table>)
    ensures r.Ok? <==> AllNamed(data)
    ensures data == [] ==> r == Ok([])
    ensures r.Ok? ==> |r.value| <= |data|
    ensures r.Ok? ==> Collected(data, r.value)
  {
    if data == [] then Ok([])
    else
      var init := data[..|data| - 1];
      var last := data[|data| - 1];
      AllNamedSplit(data);
      var t :- ToColumns(init);
      var name :- ColumnName(last);
      CollectStep(data, t);
      Ok(Put(t, name, Values(last)))
  }

  /** The first series lacking a label decides the error: when every series before `i` is
      named and series `i` is not, the conversion fails with series `i`'s missing key. */
  lemma {:induction false} ToColumnsFirstError(data: seq<Series>, i: int)
    requires 0 <= i < |data| && AllNamed(data[..i]) && ColumnName(data[i]).Err?
    ensures ToColumns(data) == Err(ColumnName(data[i]).error)
    decreases |data|
  {
    var init := data[..|data| - 1];
    if i == |data| - 1 {
      assert init == data[..i];
    } else {
      assert init[..i] == data[..i];
      assert init[i] == data[i];
      ToColumnsFirstError(init, i);
    }
  }

  /** One series of N samples becomes one column of N values. */
  lemma SingleSeriesOneColumn(s: Series)
    requires ColumnName(s).Ok?
    ensures ToColumns([s]).Ok?
    ensures |ToColumns([s]).value| == 1
    ensures ToColumns([s]).value[0] == Column(ColumnName(s).value, Values(s))
    ensures |ToColumns([s]).value[0].values| == |s.samples|
  {
    assert [s][..0] == [];
  }

  /** Two series with the same name leave one column, holding the later series' values. */
  lemma LaterSeriesWins(a: Series, b: Series)
    requires ColumnName(a).Ok? && ColumnName(a) == ColumnName(b)
    ensures ToColumns([a, b]).Ok?
    ensures ToColumns([a, b]).value == [Column(ColumnName(a).value, Values(b))]
  {
    assert [a, b][..1] == [a];
    assert [a][..0] == [];
    assert IndexOf([Column(ColumnName(a).value, Values(a))], ColumnName(a).value) == 0;
  }
}

=== FILE: text.dfy ===
/** Character-level helpers: decimal digits, the zero-padded fields strftime prints,
    Python's `str(int)`, and Python's substring test `t in s`. */
module Text {
  import opened Base

  predicate IsDigit(c: char) {
    '0' <= c <= '9'
  }

  predicate AllDigits(s: string) {
    forall i :: 0 <= i < |s| ==> IsDigit(s[i])
  }

  function DigitValue(c: char): nat
    requires IsDigit(c)
  {
    c as int - '0' as int
  }

  function DigitChar(d: nat): (c: char)
    requires d < 10
    ensures IsDigit(c) && DigitValue(c) == d
  {
    ('0' as int + d) as char
  }

  function Pow10(n: nat): nat {
    if n == 0 then 1 else 10 * Pow10(n - 1)
  }

  /** The number a run of decimal digits denotes (most significant digit first). */
  function DigitsValue(s: string): nat
    requires AllDigits(s)
  {
    if |s| == 0 then 0 else DigitsValue(s[..|s| - 1]) * 10 + DigitValue(s[|s| - 1])
  }

  /** `n` printed in exactly `width` digits with leading zeros, as `%04d` / `%02d` do. */
  function Fixed(n: nat, width: nat): (s: string)
    requires n < Pow10(width)
    ensures |s| == width && AllDigits(s)
  {
    if width == 0 then "" else Fixed(n / 10, width - 1) + [DigitChar(n % 10)]
  }

  /** Reading a fixed-width field back gives the number that was printed. */
  lemma {:induction false} FixedRoundTrip(n: nat, width: nat)
    requires n < Pow10(width)
    ensures DigitsValue(Fixed(n, width)) == n
  {
    if width > 0 {
      var s := Fixed(n, width);
      assert s[..|s| - 1] == Fixed(n / 10, width - 1);
      FixedRoundTrip(n / 10, width - 1);
    }
  }

  /** A run of `k` digits denotes a number below 10^k. */
  lemma {:induction false} DigitsValueBound(s: string)
    requires AllDigits(s)
    ensures DigitsValue(s) < Pow10(|s|)
  {
    if |s| > 0 {
      DigitsValueBound(s[..|s| - 1]);
    }
  }

  /** Printing the value of a digit run in its own width gives the run back. */
  lemma {:induction false} FixedOfDigits(s: string)
    requires AllDigits(s)
    ensures DigitsValue(s) < Pow10(|s|)
    ensures Fixed(DigitsValue(s), |s|) == s
  {
    DigitsValueBound(s);
    if |s| > 0 {
      var p := s[..|s| - 1];
      FixedOfDigits(p);
      var v := DigitsValue(s);
      assert v / 10 == DigitsValue(p);
      assert v % 10 == DigitValue(s[|s| - 1]);
      assert s == p + [s[|s| - 1]];
    }
  }

  /** Python's `str(n)` for a natural number: shortest decimal, no leading zero. */
  function NatText(n: nat): (s: string)
    ensures |s| >= 1 && AllDigits(s)
    ensures |s| > 1 ==> s[0] != '0'
    decreases n
  {
    if n < 10 then [DigitChar(n)] else NatText(n / 10) + [DigitChar(n % 10)]
  }

  /** How Python prints an integer: an optional minus sign, then at least one digit, with no
      leading zero unless the number is 0. */
  predicate PlainInt(s: string) {
    && |s| > 0
    && var d := if s[0] == '-' then s[1..] else s;
       |d| > 0 && AllDigits(d) && (|d| > 1 ==> d[0] != '0') && (s[0] == '-' ==> d != "0")
  }

  /** Python's `str(n)` / `'{}'.format(n)` for an integer. */
  function IntText(n: int): (s: string)
    ensures PlainInt(s)
    ensures s[0] == '-' <==> n < 0
  {
    if n < 0 then
      var s := "-" + NatText(-n);
      assert s[1..] == NatText(-n);
      s
    else NatText(n)
  }

  /** A digit run without a leading zero is the shortest decimal of its value. */
  lemma {:induction false} NatTextOfDigits(d: string)
    requires |d| > 0 && AllDigits(d) && (|d| > 1 ==> d[0] != '0')
    ensures NatText(DigitsValue(d)) == d
    decreases |d|
  {
    var v := DigitsValue(d);
    if |d| == 1 {
      assert |d[..0]| == 0 && DigitsValue(d[..0]) == 0;
      assert v == DigitValue(d[0]);
      assert [DigitChar(v)] == d;
    } else {
      var p := d[..|d| - 1];
      assert p[0] == d[0];
      NatTextOfDigits(p);
      assert DigitsValue(p) != 0;
      assert v / 10 == DigitsValue(p) && v % 10 == DigitValue(d[|d| - 1]);
      assert d == p + [d[|d| - 1]];
    }
  }

  /** A plainly printed integer is exactly how Python prints its value: no other text for
      the same number has that form. */
  lemma PlainIntIsIntText(s: string)
    requires PlainInt(s)
    ensures ParseInt(s).Some? && IntText(ParseInt(s).value) == s
  {
    if s[0] == '-' {
      var d := s[1..];
      NatTextOfDigits(d);
      assert s == "-" + d;
    } else {
      NatTextOfDigits(s);
    }
  }

  /** Reads an optional minus sign followed by at least one digit. */
  function ParseInt(s: string): Option<int> {
    if |s| > 0 && s[0] == '-' then
      if |s| > 1 && AllDigits(s[1..]) then var v: int := DigitsValue(s[1..]); Some(-v) else None
    else if |s| > 0 && AllDigits(s) then Some(DigitsValue(s))
    else None
  }

  lemma {:induction false} NatTextValue(n: nat)
    ensures DigitsValue(NatText(n)) == n
    decreases n
  {
    if n >= 10 {
      var s := NatText(n);
      assert s[..|s| - 1] == NatText(n / 10);
      NatTextValue(n / 10);
    }
  }

  /** The decimal rendering of an integer is unambiguous: it parses back to the integer. */
  lemma IntTextRoundTrip(n: int)
    ensures ParseInt(IntText(n)) == Some(n)
  {
    if n < 0 {
      NegTextParses(n);
    } else {
      var s := IntText(n);
      assert s == NatText(n) && IsDigit(s[0]);
      NatTextValue(n);
    }
  }

  /** A negative number's rendering is a minus sign and digits reading back as its magnitude. */
  lemma NegTextParses(n: int)
    requires n < 0
    ensures ParseInt(IntText(n)) == Some(n)
  {
    var s := IntText(n);
    assert s[0] == '-' && s[1..] == NatText(-n);
    NatTextValue(-n);
    assert DigitsValue(s[1..]) == -n;
  }

  /** `t` occurs in `s` starting at index `i`. */
  predicate OccursAt(s: string, t: string, i: int) {
    0 <= i && i + |t| <= |s| && s[i..i + |t|] == t
  }

  /** Python's `t in s` on strings: `t` is a contiguous substring of `s`
      (the empty string is in every string). */
  predicate Contains(s: string, t: string) {
    exists i :: 0 <= i <= |s| - |t| && OccursAt(s, t, i)
  }

  /** Substring search by scanning every start position. */
  method Find(s: string, t: string) returns (found: bool)
    ensures found <==> Contains(s, t)
  {
    var i := 0;
    while i + |t| <= |s|
      invariant 0 <= i
      invariant |t| <= |s| ==> i <= |s| - |t| + 1
      invariant forall j :: 0 <= j < i ==> !OccursAt(s, t, j)
    {
      if s[i..i + |t|] == t {
        assert OccursAt(s, t, i);
        return true;
      }
      i := i + 1;
    }
    return false;
  }
}

=== FILE: timestamps.dfy ===
/** Naive calendar datetimes with whole seconds, the wire format
    `YYYY-MM-DDTHH:MM:SSZ` the client prints and parses, and the one piece of
    datetime arithmetic the client does: subtracting one hour from "now". */
module Timestamps {
  import opened Base
  import opened Text

  /** The fields of a Python `datetime` the client uses (microseconds are not modelled). */
  datatype Civil = Civil(year: int, month: int, day: int, hour: int, minute: int, second: int)

  predicate IsLeap(y: int) {
    y % 4 == 0 && (y % 100 != 0 || y % 400 == 0)
  }

  function DaysInMonth(y: int, m: int): int
    requires 1 <= m <= 12
  {
    if m == 2 then (if IsLeap(y) then 29 else 28)
    else if m == 4 || m == 6 || m == 9 || m == 11 then 30
    else 31
  }

  /** The range Python's `datetime` accepts (`MINYEAR`..`MAXYEAR`, real dates, 0..59 seconds). */
  predicate ValidCivil(c: Civil) {
    && 1 <= c.year <= 9999
    && 1 <= c.month <= 12
    && 1 <= c.day <= DaysInMonth(c.year, c.month)
    && 0 <= c.hour < 24
    && 0 <= c.minute < 60
    && 0 <= c.second < 60
  }

  /** A value of Python's `datetime` type. */
  type DateTime = c: Civil | ValidCivil(c) witness Civil(1970, 1, 1, 0, 0, 0)

  function DaysBeforeYear(y: int): int
    requires y >= 1
  {
    var p := y - 1;
    p * 365 + p / 4 - p / 100 + p / 400
  }

  function DaysBeforeMonth(y: int, m: int): int
    requires 1 <= m <= 12
  {
    if m == 1 then 0 else DaysBeforeMonth(y, m - 1) + DaysInMonth(y, m - 1)
  }

  /** Proleptic Gregorian day number; 0001-01-01 is day 1, as `date.toordinal()`. */
  function Ordinal(dt: DateTime): int {
    DaysBeforeYear(dt.year) + DaysBeforeMonth(dt.year, dt.month) + dt.day
  }

  /** `date(1970, 1, 1).toordinal()`. */
  const UnixEpochOrdinal: int := 719163

  /** Seconds since 1970-01-01T00:00:00 (`.timestamp()`), reading the datetime as if it were
      UTC: local time zones and daylight-saving jumps are left out. */
  function Seconds(dt: DateTime): int {
    (Ordinal(dt) - UnixEpochOrdinal) * 86400 + dt.hour * 3600 + dt.minute * 60 + dt.second
  }

  /** The twelve months of year `y` hold 365 days, 366 in a leap year. */
  lemma MonthsOfYear(y: int)
    ensures DaysBeforeMonth(y, 12) + 31 == (if IsLeap(y) then 366 else 365)
  {
    assert DaysBeforeMonth(y, 2) == 31;
    assert DaysBeforeMonth(y, 3) == 31 + DaysInMonth(y, 2);
    assert DaysBeforeMonth(y, 4) == DaysBeforeMonth(y, 3) + 31;
    assert DaysBeforeMonth(y, 5) == DaysBeforeMonth(y, 4) + 30;
    assert DaysBeforeMonth(y, 6) == DaysBeforeMonth(y, 5) + 31;
    assert DaysBeforeMonth(y, 7) == DaysBeforeMonth(y, 6) + 30;
    assert DaysBeforeMonth(y, 8) == DaysBeforeMonth(y, 7) + 31;
    assert DaysBeforeMonth(y, 9) == DaysBeforeMonth(y, 8) + 31;
    assert DaysBeforeMonth(y, 10) == DaysBeforeMonth(y, 9) + 30;
    assert DaysBeforeMonth(y, 11) == DaysBeforeMonth(y, 10) + 31;
    assert DaysBeforeMonth(y, 12) == DaysBeforeMonth(y, 11) + 30;
  }

  /** The closed form for the days before a year grows by the length of the year before. */
  lemma DaysBeforeYearStep(y: int)
    requires y >= 2
    ensures DaysBeforeYear(y) == DaysBeforeYear(y - 1) + (if IsLeap(y - 1) then 366 else 365)
  {
    var q := y - 1;
    var p := y - 2;
    assert q / 4 - p / 4 == (if q % 4 == 0 then 1 else 0);
    assert q / 100 - p / 100 == (if q % 100 == 0 then 1 else 0);
    assert q / 400 - p / 400 == (if q % 400 == 0 then 1 else 0);
    assert q % 100 == 0 ==> q % 4 == 0;
    assert q % 400 == 0 ==> q % 100 == 0;
  }

  /** A year contributes the days of its twelve months. */
  lemma YearLength(y: int)
    requires y >= 2
    ensures DaysBeforeYear(y) == DaysBeforeYear(y - 1) + DaysBeforeMonth(y - 1, 12) + 31
  {
    MonthsOfYear(y - 1);
    DaysBeforeYearStep(y);
  }

  /** `dt - timedelta(hours=1)`: `None` where Python raises OverflowError. */
  function MinusOneHour(dt: DateTime): (r: Option<DateTime>)
    ensures r.Some? ==> Seconds(r.value) == Seconds(dt) - 3600
    ensures r.None? <==> dt.year == 1 && dt.month == 1 && dt.day == 1 && dt.hour == 0
    ensures r.Some? ==> r.value.minute == dt.minute && r.value.second == dt.second
  {
    if dt.hour > 0 then
      Some(dt.(hour := dt.hour - 1))
    else if dt.day > 1 then
      Some(dt.(day := dt.day - 1, hour := 23))
    else if dt.month > 1 then
      var m := dt.month - 1;
      Some(dt.(month := m, day := DaysInMonth(dt.year, m), hour := 23))
    else if dt.year > 1 then
      YearLength(dt.year);
      Some(Civil(dt.year - 1, 12, 31, 23, dt.minute, dt.second))
    else
      None
  }

  lemma Pow10Values()
    ensures Pow10(2) == 100 && Pow10(4) == 10000
  {
    assert Pow10(1) == 10;
    assert Pow10(3) == 1000;
  }

  /** `dt.strftime('%Y-%m-%dT%H:%M:%SZ')`. */
  function Format(dt: DateTime): (s: string)
    ensures |s| == 20
    ensures s[4] == '-' && s[7] == '-' && s[10] == 'T' && s[13] == ':' && s[16] == ':' && s[19] == 'Z'
  {
    Pow10Values();
    Fixed(dt.year, 4) + "-" + Fixed(dt.month, 2) + "-" + Fixed(dt.day, 2) + "T"
    + Fixed(dt.hour, 2) + ":" + Fixed(dt.minute, 2) + ":" + Fixed(dt.second, 2) + "Z"
  }

  /** The six digit fields and six separators of the wire format are in place. */
  predicate WellShaped(s: string) {
    && |s| == 20
    && s[4] == '-' && s[7] == '-' && s[10] == 'T' && s[13] == ':' && s[16] == ':' && s[19] == 'Z'
    && AllDigits(s[0..4]) && AllDigits(s[5..7]) && AllDigits(s[8..10])
    && AllDigits(s[11..13]) && AllDigits(s[14..16]) && AllDigits(s[17..19])
  }

  /** The calendar fields a well-shaped string spells. */
  function Fields(s: string): Civil
    requires WellShaped(s)
  {
    Civil(DigitsValue(s[0..4]), DigitsValue(s[5..7]), DigitsValue(s[8..10]),
          DigitsValue(s[11..13]), DigitsValue(s[14..16]), DigitsValue(s[17..19]))
  }

  /** `datetime.strptime(s, '%Y-%m-%dT%H:%M:%SZ')`, zero-padded fields only. Every string
      it accepts is the printed form of the datetime it yields. */
  function Parse(s: string): (r: Result<DateTime>)
    ensures r.Err? ==> r == Err(BadTimestamp(s))
    ensures r.Ok? ==> Format(r.value) == s
  {
    if WellShaped(s) && ValidCivil(Fields(s)) then FieldsThenFormat(s); Ok(Fields(s))
    else Err(BadTimestamp(s))
  }

  /** The slices of a formatted datetime are its fixed-width fields. */
  lemma FormatSlices(dt: DateTime)
    ensures Pow10(2) == 100 && Pow10(4) == 10000
    ensures Format(dt)[0..4] == Fixed(dt.year, 4)
    ensures Format(dt)[5..7] == Fixed(dt.month, 2)
    ensures Format(dt)[8..10] == Fixed(dt.day, 2)
    ensures Format(dt)[11..13] == Fixed(dt.hour, 2)
    ensures Format(dt)[14..16] == Fixed(dt.minute, 2)
    ensures Format(dt)[17..19] == Fixed(dt.second, 2)
  {
    Pow10Values();
  }

  /** Parsing what was printed recovers the datetime. */
  lemma FormatThenParse(dt: DateTime)
    ensures Parse(Format(dt)) == Ok(dt)
  {
    FormatSlices(dt);
    var s := Format(dt);
    FixedRoundTrip(dt.year, 4);
    FixedRoundTrip(dt.month, 2);
    FixedRoundTrip(dt.day, 2);
    FixedRoundTrip(dt.hour, 2);
    FixedRoundTrip(dt.minute, 2);
    FixedRoundTrip(dt.second, 2);
    assert WellShaped(s);
    assert Fields(s) == dt;
  }

  /** A well-shaped string is its six digit fields joined by the separators. */
  lemma WellShapedSplit(s: string)
    requires WellShaped(s)
    ensures s == s[0..4] + "-" + s[5..7] + "-" + s[8..10] + "T"
                 + s[11..13] + ":" + s[14..16] + ":" + s[17..19] + "Z"
  {
  }

  /** Printing the fields a well-shaped string spells gives back the string. */
  lemma FieldsThenFormat(s: string)
    requires WellShaped(s) && ValidCivil(Fields(s))
    ensures Format(Fields(s)) == s
  {
    Pow10Values();
    FixedOfDigits(s[0..4]);
    FixedOfDigits(s[5..7]);
    FixedOfDigits(s[8..10]);
    FixedOfDigits(s[11..13]);
    FixedOfDigits(s[14..16]);
    FixedOfDigits(s[17..19]);
    WellShapedSplit(s);
  }

  lemma YearExample()
    ensures Fixed(2005, 4) == "2005"
  {
    assert Fixed(2, 1) == "2" by { assert DigitChar(2) == '2'; }
    assert Fixed(20, 2) == "20" by { assert DigitChar(0) == '0'; }
    assert Fixed(200, 3) == "200" by { assert DigitChar(0) == '0'; }
    assert DigitChar(5) == '5';
  }

  lemma TwoDigitExamples()
    ensures Fixed(6, 2) == "06" && Fixed(1, 2) == "01" && Fixed(13, 2) == "13"
    ensures Fixed(33, 2) == "33" && Fixed(0, 2) == "00"
  {
    assert DigitChar(0) == '0' && DigitChar(1) == '1' && DigitChar(3) == '3' && DigitChar(6) == '6';
  }

  /** The worked example: 1:33 PM on 1 June 2005 prints as `2005-06-01T13:33:00Z`. */
  lemma FormatExample(dt: DateTime)
    requires dt == Civil(2005, 6, 1, 13, 33, 0)
    ensures Format(dt) == "2005-06-01T13:33:00Z"
  {
    Pow10Values();
    YearExample();
    TwoDigitExamples();
    var pieces := "2005" + "-" + "06" + "-" + "01" + "T" + "13" + ":" + "33" + ":" + "00" + "Z";
    assert Format(dt) == pieces;
  }
}

=== FILE: window.dfy ===
/** Time-window and step resolution of `PrometheusQueryClient.get_general`:
    the default window is the hour before "now", the default step is the
    duration over 500 rounded to whole seconds, and a duration over 500 * 11000
    seconds replaces the step by the duration over 11000, rounded down. */
module Window {
  import opened Base
  import opened Text
  import opened Timestamps

  /** The default step aims at this many samples per window. */
  const DefaultSamples: int := 500

  /** Above this many seconds per default step, the step is overridden. */
  const StepLimit: int := 11000

  /** The `step` value handed to `query_range`. */
  datatype Step =
    | Given(raw: string)      // the caller's own (truthy) step, passed through untouched
    | Rounded(seconds: int)   // `'{}s'.format(round(d / 500))`
    | Floored(seconds: int)   // `'{}s'.format(np.floor(d / 11000))`: a float, so printed with `.0`

  /** The text sent as the `step` request parameter. */
  function StepText(s: Step): (t: string)
    ensures s.Given? ==> t == s.raw
    ensures s.Rounded? ==> |t| > 1 && t[|t| - 1] == 's' && ParseInt(t[..|t| - 1]) == Some(s.seconds)
    ensures s.Rounded? ==> PlainInt(t[..|t| - 1])
    ensures s.Floored? ==> |t| > 3 && t[|t| - 3..] == ".0s" && ParseInt(t[..|t| - 3]) == Some(s.seconds)
    ensures s.Floored? ==> PlainInt(t[..|t| - 3])
  {
    match s
    case Given(raw) => raw
    case Rounded(n) =>
      var digits := IntText(n);
      IntTextRoundTrip(n);
      assert (digits + "s")[..|digits|] == digits;
      digits + "s"
    case Floored(n) =>
      var digits := IntText(n);
      IntTextRoundTrip(n);
      assert (digits + ".0s")[..|digits|] == digits;
      digits + ".0s"
  }

  /** Python's `round(x)` on a float: the nearest integer, ties going to the even one. */
  function RoundHalfEven(x: real): (r: int)
    ensures -0.5 <= x - r as real <= 0.5
    ensures (x - r as real == 0.5 || r as real - x == 0.5) ==> r % 2 == 0
  {
    var f := x.Floor;
    var frac := x - f as real;
    if frac < 0.5 then f
    else if frac > 0.5 then f + 1
    else if f % 2 == 0 then f
    else f + 1
  }

  /** Round-half-even is the unique integer within one half of `x` that is even on a tie. */
  lemma RoundHalfEvenUnique(x: real, n: int)
    requires -0.5 <= x - n as real <= 0.5
    requires (x - n as real == 0.5 || n as real - x == 0.5) ==> n % 2 == 0
    ensures RoundHalfEven(x) == n
  {
  }

  /** A resolved query window: the two strings sent as `start` and `end`, the step,
      and the number of seconds between the two instants the client computed. */
  datatype Window = Window(start: string, end: string, step: Step, span: int)

  /** What the step must be for a window of `span` seconds and the caller's `step`. */
  predicate StepRule(span: int, step: Option<string>, st: Step) {
    if span > DefaultSamples * StepLimit then
      st.Floored? && StepLimit * st.seconds <= span < StepLimit * (st.seconds + 1)
    else if Truthy(step) then
      st == Given(step.value)
    else
      && st.Rounded?
      && -250 <= span - DefaultSamples * st.seconds <= 250
      && ((span - DefaultSamples * st.seconds == 250 || span - DefaultSamples * st.seconds == -250)
          ==> st.seconds % 2 == 0)
  }

  /** `(d / 500) > 11000` on whole seconds is `d > 5,500,000`. */
  lemma OverrideThreshold(d: int)
    ensures (d as real / 500.0 > 11000.0) <==> d > DefaultSamples * StepLimit
  {
  }

  /** Python's floor of `d / 11000` brackets `d` between consecutive multiples of 11000. */
  lemma FloorBrackets(d: int)
    ensures StepLimit * (d as real / 11000.0).Floor <= d < StepLimit * ((d as real / 11000.0).Floor + 1)
  {
    var n := (d as real / 11000.0).Floor;
    assert n as real <= d as real / 11000.0 < n as real + 1.0;
    assert (n * 11000) as real <= d as real;
    assert d as real < ((n + 1) * 11000) as real;
  }

  /** Round-half-even of `d / 500` is the nearest multiple count of 500, ties to even. */
  lemma RoundBrackets(d: int)
    ensures -250 <= d - DefaultSamples * RoundHalfEven(d as real / 500.0) <= 250
    ensures var n := RoundHalfEven(d as real / 500.0);
      (d - 500 * n == 250 || d - 500 * n == -250) ==> n % 2 == 0
  {
    var x := d as real / 500.0;
    var n := RoundHalfEven(x);
    assert -0.5 <= x - n as real <= 0.5;
    assert -250.0 <= (d - 500 * n) as real <= 250.0;
    if d - 500 * n == 250 {
      assert x - n as real == 0.5;
    } else if d - 500 * n == -250 {
      assert n as real - x == 0.5;
    }
  }

  /** The step `get_general` settles on, before it is printed. */
  function ResolveStep(span: int, step: Option<string>): (st: Step)
    ensures StepRule(span, step, st)
  {
    var x := span as real / 500.0;
    var chosen := if !Truthy(step) then Rounded(RoundHalfEven(x)) else Given(step.value);
    OverrideThreshold(span);
    FloorBrackets(span);
    RoundBrackets(span);
    if x > 11000.0 then Floored((span as real / 11000.0).Floor) else chosen
  }

  /** `get_general`'s window: "now" is a parameter; `start`, `end` and `step` are the
      caller's optional strings (falsy when absent or empty). */
  function ResolveWindow(start: Option<string>, end: Option<string>, step: Option<string>, now: DateTime)
    : (r: Result<Window>)
    ensures r.Err? <==>
      || MinusOneHour(now).None?
      || (Truthy(start) && Parse(start.value).Err?)
      || (Truthy(end) && Parse(end.value).Err?)
    ensures MinusOneHour(now).None? ==> r == Err(ClockUnderflow)
    ensures MinusOneHour(now).Some? && Truthy(start) && Parse(start.value).Err? ==>
      r == Err(BadTimestamp(start.value))
    ensures MinusOneHour(now).Some? && !(Truthy(start) && Parse(start.value).Err?)
            && Truthy(end) && Parse(end.value).Err? ==>
      r == Err(BadTimestamp(end.value))
    ensures r.Ok? ==> Parse(r.value.start).Ok? && Parse(r.value.end).Ok?
    ensures r.Ok? ==> r.value.span == Seconds(Parse(r.value.end).value) - Seconds(Parse(r.value.start).value)
    ensures r.Ok? && Truthy(start) ==> r.value.start == start.value
    ensures r.Ok? && Truthy(end) ==> r.value.end == end.value
    ensures r.Ok? && !Truthy(start) ==> Seconds(Parse(r.value.start).value) == Seconds(now) - 3600
    ensures r.Ok? && !Truthy(end) ==> Parse(r.value.end) == Ok(now)
    ensures r.Ok? ==> StepRule(r.value.span, step, r.value.step)
  {
    var enddt0 := now;
    if MinusOneHour(now).None? then Err(ClockUnderflow)
    else
      var startdt0 := MinusOneHour(now).value;
      var s :- if !Truthy(start) then Ok((Format(startdt0), startdt0))
               else var p :- Parse(start.value); Ok((start.value, p));
      var e :- if !Truthy(end) then Ok((Format(enddt0), enddt0))
               else var p :- Parse(end.value); Ok((end.value, p));
      FormatThenParse(startdt0);
      FormatThenParse(enddt0);
      var span := Seconds(e.1) - Seconds(s.1);
      Ok(Window(s.0, e.0, ResolveStep(span, step), span))
  }

  /** With neither end given, the window is exactly the hour before "now". */
  lemma DefaultWindowIsOneHour(step: Option<string>, now: DateTime)
    requires MinusOneHour(now).Some?
    ensures ResolveWindow(None, None, step, now).Ok?
    ensures ResolveWindow(None, None, step, now).value.span == 3600
    ensures ResolveWindow(None, None, step, now).value.end == Format(now)
  {
    FormatThenParse(now);
  }

  /** A missing start is taken from the clock, never from a supplied end. */
  lemma StartDefaultIgnoresEnd(end: string, step: Option<string>, now: DateTime)
    requires MinusOneHour(now).Some? && |end| > 0 && Parse(end).Ok?
    ensures ResolveWindow(None, Some(end), step, now).Ok?
    ensures ResolveWindow(None, Some(end), step, now).value.span == Seconds(Parse(end).value) - Seconds(now) + 3600
  {
  }

  /** No lower bound: a window under 250 seconds gets the default step `0s`. */
  lemma ShortWindowStepZero(span: int)
    requires 0 <= span < 250
    ensures ResolveStep(span, None) == Rounded(0)
    ensures StepText(ResolveStep(span, None)) == "0s"
  {
  }

  /** The override also replaces a step the caller gave, and it is never below 500 seconds. */
  lemma OverrideIgnoresGivenStep(span: int, step: Option<string>)
    requires span > DefaultSamples * StepLimit
    ensures ResolveStep(span, step).Floored?
    ensures ResolveStep(span, step).seconds >= 500
    ensures ResolveStep(span, step) == ResolveStep(span, None)
  {
  }

  /** The floored override does not keep a window within 11000 steps: 5,510,999 seconds
      get a 500-second step, which is 11021 whole steps. */
  lemma OverrideCanExceedLimit()
    ensures ResolveStep(5510999, None) == Floored(500)
    ensures 5510999 / 500 > StepLimit
  {
    var st := ResolveStep(5510999, None);
    assert 11000 * st.seconds <= 5510999 < 11000 * (st.seconds + 1);
  }
}
